=== FILE: README.md ===
# Todo app — a Dafny model of its request rules and list transforms

This project models the logic of a small todo application. It has two parts.

The backend is an Express controller over a TypeORM repository of todos. It lists them, filtered by status. It creates, patches and deletes them, with validation and HTTP status codes.

The frontend is a React client. It searches the loaded list, keeps counts, and applies create, toggle, title-edit and delete optimistically, rolling back on failure. It also renders a pagination control, a new-todo form and an editable row.

Every handler is a pure function. A backend handler maps the repository contents and the request to a response and the new repository contents. A client handler maps the list, plus the server's answer, to the new list. Pagination maps `(currentPage, totalPages)` to the tokens it renders.

Modules, one per source component:

- `Wrappers` — `Option`.
- `Lists` — order-preserving `filter`, with the subsequence, multiplicity and partition facts.
- `Text` — JavaScript `trim`, `toLowerCase` and `includes` over code-point strings. Whitespace is the exact ECMAScript WhiteSpace plus LineTerminator set.
- `Todos` — the entity (`backend/src/entities/Todo.ts`), the shared title rule, and id-addressed find, replace and remove.
- `Controller` — `backend/src/controllers/todo.controller.ts`. Request bodies are a small JSON value type, so the handler's truthiness test, its `typeof` test and the `TypeError` that `title.trim()` throws on a non-string are all modelled.
- `ControllerProperties` — lemmas about the handlers: the status partition, the repository invariant, find-after-create and find-after-update, and delete.
- `App` — `frontend/src/App.tsx`: search, counts, and each mutation as its optimistic step plus its success or failure continuation.
- `Pagination` — `frontend/src/components/TodoPagination.tsx`.
- `TodoInput` — `frontend/src/components/TodoInput.tsx`.
- `TodoItem` — `frontend/src/components/TodoItem.tsx`.
- `ClientServer` — lemmas linking the client to the server. The form's rule matches the server's. The client list may have been loaded with status `all`, which gives the whole repository. Then, after a confirmed toggle, title edit or delete, the client list equals the server's repository. After a confirmed create it holds the same todos, with the new one first rather than last. The counts equal the sizes of the status listings. A list loaded with `active` or `completed` shows 0 for the other count.

Notes on the code's behaviour:

- GET returns a bare array. There is no server-side search, sort, paging or aggregate count.
- POST ignores any `kind`; the column default `task` applies.
- Create is not optimistic: the todo is prepended only after the server answers.
- A failed delete puts the todo back at the front of the list, not at its old position. `App.DeleteFailureMovesToFront` proves the result equals the original list exactly when the todo was already first.

## Model

| member | source | states |
|---|---|---|
| `Text.Trim` | backend/src/controllers/todo.controller.ts:39 | `trim` returns the stretch between two blank margins, with no whitespace at either end. It is empty exactly when the input is all whitespace. |
| `Text.Includes` | frontend/src/App.tsx:43 | `includes` holds exactly when the needle occurs at some position; the empty needle occurs everywhere |
| `Todos.FindById` | frontend/src/App.tsx:75 | `find` by id returns nothing exactly when no todo has the id. Otherwise it returns the first todo in the list with that id, and with unique ids it is the only one. |
| `Todos.RemoveById` | frontend/src/App.tsx:98 | filtering out an id leaves no todo with it and keeps every other todo |
| `Todos.RemoveKeepsOrder` | frontend/src/App.tsx:98 | the todos left by the filter are in their original order |
| `Todos.RemoveKeepsMultiplicity` | frontend/src/App.tsx:98 | the filter keeps each todo without the id as often as it occurs and drops every occurrence of a todo with it |
| `Todos.RemoveUnique` | frontend/src/App.tsx:98 | with unique ids, removing the id at position k yields the list without position k, in order |
| `Todos.FindAfterReplace` | backend/src/controllers/todo.controller.ts:116 | after saving a todo over its id, that id finds the saved todo and every other id finds what it found before |
| `Controller.GetAllTodos` | backend/src/controllers/todo.controller.ts:7-30 | 200 with the todos the status selects, in repository order: `active` gives the open ones, `completed` the done ones, anything else everything. The repository is unchanged. |
| `Controller.CreateTodo` | backend/src/controllers/todo.controller.ts:33-69 | A falsy, blank or over-255 title is 400; the length is checked before trimming. A truthy non-string is 500. Only a 201 changes the repository, appending one todo with the fresh id, the trimmed title and `completed = false`. |
| `Controller.UpdateTodo` | backend/src/controllers/todo.controller.ts:72-126 | An unknown id is 404 whatever the body. A bad title is 400, or 500 for a non-string; a non-boolean `completed` is 400. Nothing is saved unless the status is 200. A 200 saves only the provided fields, with the title trimmed. |
| `Controller.DeleteTodo` | backend/src/controllers/todo.controller.ts:129-154 | 204 exactly when the id exists, after which no todo has it and the others remain; 404 with no change otherwise |
| `Controller.DeleteAllTodos` | backend/src/controllers/todo.controller.ts:157-173 | the repository is emptied and 200 `{ deleted: true }` is sent |
| `ControllerProperties.StatusFiltersPartition` | backend/src/controllers/todo.controller.ts:14-20 | the active and completed listings together hold every todo of the plain listing exactly once |
| `ControllerProperties.CreatePreservesWellFormed` | backend/src/controllers/todo.controller.ts:39-61 | with a fresh id, create keeps ids unique and every stored title non-empty, trimmed and at most 255 long |
| `ControllerProperties.CreateThenFind` | backend/src/controllers/todo.controller.ts:54-61 | after a 201 the new id finds exactly the created todo and every other lookup is unchanged |
| `ControllerProperties.CreateChecksLengthBeforeTrim` | backend/src/controllers/todo.controller.ts:46-51 | "a" followed by 255 spaces trims to "a" but is rejected with 400 "too long" |
| `ControllerProperties.UpdatePreservesWellFormed` | backend/src/controllers/todo.controller.ts:89-116 | update keeps ids unique and stored titles well formed |
| `ControllerProperties.UpdateThenFind` | backend/src/controllers/todo.controller.ts:89-118 | After a 200 the todo differs from before only in the provided fields, with id and kind kept. Other ids are untouched and every position keeps its id. |
| `ControllerProperties.DeleteRemovesExactlyOne` | backend/src/controllers/todo.controller.ts:135-146 | deleting the id at position k removes exactly that todo: one fewer, the rest in order, same multiset minus it |
| `ControllerProperties.DeletePreservesWellFormed` | backend/src/controllers/todo.controller.ts:135-146 | delete keeps the repository invariant |
| `ControllerProperties.DeleteTwiceIsNotFound` | backend/src/controllers/todo.controller.ts:135-142 | a second delete of the same id is 404 and changes nothing |
| `ControllerProperties.DeleteAllThenList` | backend/src/controllers/todo.controller.ts:160-165 | after delete-all every listing is empty, and repeating delete-all gives the same answer |
| `App.SearchFilter` | frontend/src/App.tsx:43 | A blank query returns the list unchanged. Otherwise the result is the order-preserving subsequence of todos whose lower-cased title contains the lower-cased, trimmed query. Each matching todo occurs as often as in the list, and no other todo occurs. |
| `Text.Lower` | frontend/src/App.tsx:43 | `toLowerCase` turns each capital into its small letter, 0x20 further on, changes no other code point, and keeps whitespace where it was |
| `Text.LowerIdempotent` | frontend/src/App.tsx:43 | lower-casing twice is lower-casing once |
| `Text.LowerKeepsBlank` | frontend/src/App.tsx:43 | a query is blank exactly when its lower-cased form is, so the blank test before lower-casing agrees with the one after |
| `App.ActiveCount` | frontend/src/App.tsx:113 | the active count is at most the list length and is 0 exactly when every todo is done |
| `App.CompletedCount` | frontend/src/App.tsx:114 | the completed count is at most the list length and is 0 exactly when every todo is open |
| `App.CountsCoverList` | frontend/src/App.tsx:113-114 | active count plus completed count is the length of the unsearched list |
| `App.HandleAdd` | frontend/src/App.tsx:46-55 | success prepends the server's todo; failure leaves the list unchanged |
| `App.HandleToggle` | frontend/src/App.tsx:58-71 | Only `completed` of the todos with the id changes. It becomes the requested value on success and its negation on failure, whatever it was before the click. |
| `App.ToggleRevert` | frontend/src/App.tsx:67 | the rollback sets `completed` to the negation of the requested value on the todos with the id, and keeps everything else |
| `App.ToggleOptimistic` | frontend/src/App.tsx:60 | the optimistic toggle keeps length, order, ids, titles and kinds, and sets `completed` only on the todos with that id |
| `App.ToggleFailureRestores` | frontend/src/App.tsx:58-71 | toggle-then-rollback (writing `!completed`) gives back the original list exactly when every todo with that id held the negation of the requested value |
| `App.HandleUpdate` | frontend/src/App.tsx:74-91 | Todos with other ids are never touched. On success the todos with the id get the new title. On failure they all become the first todo that had the id before the edit. |
| `App.TitleRevert` | frontend/src/App.tsx:85-87 | the rollback writes the snapshot over every todo with the id and leaves the others; without a snapshot nothing changes |
| `App.UpdateFailureRestores` | frontend/src/App.tsx:74-91 | with unique ids, edit-then-rollback to the snapshot is the identity, whether or not the id is present |
| `App.UpdateSuccessChangesOnlyTitle` | frontend/src/App.tsx:78 | a confirmed edit changes only the title of the todo with that id |
| `App.HandleDelete` | frontend/src/App.tsx:94-111 | Every todo without the id survives either way. On success no todo with the id is left. On failure the id is present exactly when it was before, and then the todo found before the delete is first. No todo appears that was not in the list. |
| `App.DeleteFailureMovesToFront` | frontend/src/App.tsx:94-111 | delete-then-rollback moves the todo to the front: same multiset, equal to the original exactly when it was first |
| `App.DeleteOutcomes` | frontend/src/App.tsx:94-111 | a confirmed delete removes exactly the todo; deleting an absent id changes nothing either way |
| `Pagination.VisiblePages` | frontend/src/components/TodoPagination.tsx:20-27 | The visible pages are exactly the numbers in 1..total that are 1, total or within one of the current page. They are strictly increasing, start at 1, end at total and number at most 5. |
| `Pagination.RenderPages` | frontend/src/components/TodoPagination.tsx:29-55 | The links carry the pages in order. An ellipsis only sits between two links more than one apart, and adjacent links are at most one apart. A link is active exactly when it is the current page, and at most one is. |
| `Pagination.Render` | frontend/src/components/TodoPagination.tsx:18-55 | nothing is rendered exactly when total is at most 1; otherwise the tokens have all the properties above for the visible pages |
| `Pagination.PreviousRequest` | frontend/src/components/TodoPagination.tsx:62 | Previous requests a page exactly when the current page is past 1, and then page `current - 1`, which is at least 1 |
| `Pagination.NextRequest` | frontend/src/components/TodoPagination.tsx:71 | Next requests a page exactly when the current page is before the last, and then page `current + 1`, which is at most the total |
| `Pagination.RequestsStayInRange` | frontend/src/components/TodoPagination.tsx:62-72 | Previous requests `current - 1` only past page 1, and Next requests `current + 1` only before the last page. From an in-range page both requests stay in range, and the disabled styling matches the requests. The numbered links are in range by `Pagination.VisiblePages`. |
| `TodoInput.ValidateTitle` | frontend/src/components/TodoInput.tsx:15-26 | accepts exactly the server's acceptable titles, with no error when it accepts, the empty error for a blank title and the too-long error for a non-blank title over 255 |
| `TodoInput.Submit` | frontend/src/components/TodoInput.tsx:28-36 | A valid title is handed to `onAdd` once, trimmed, and the form is cleared. An invalid one is not handed on: the title stays and the validation error is shown. |
| `TodoInput.Change` | frontend/src/components/TodoInput.tsx:38-46 | the title becomes the typed value; an existing error is cleared exactly when the value is not blank, and no error is introduced |
| `TodoInput.SubmitDisabled` | frontend/src/components/TodoInput.tsx:61 | the submit button is disabled exactly when `disabled` is set or the title is blank |
| `TodoInput.EnabledButtonSubmits` | frontend/src/components/TodoInput.tsx:57-61 | for titles within the input's `maxLength`, a submit hands the title on exactly when the button is enabled |
| `TodoInput.RetryAfterRejection` | frontend/src/components/TodoInput.tsx:28-46 | after a rejected submit, typing a valid value clears the error and the next submit hands it on trimmed |
| `TodoItem.ClickCheckbox` | frontend/src/components/TodoItem.tsx:47 | the checkbox fires `onToggle(id, !completed)` exactly when not editing |
| `TodoItem.ClickEdit` | frontend/src/components/TodoItem.tsx:79 | the edit button enters edit mode unless the todo is completed |
| `TodoItem.Save` | frontend/src/components/TodoItem.tsx:22-27 | `onUpdate(id, trim(text))` fires exactly when the trimmed text is non-empty and the raw text differs from the title; edit mode always ends |
| `TodoItem.Cancel` | frontend/src/components/TodoItem.tsx:29-32 | the edit text returns to the title, edit mode ends and no callback fires |
| `TodoItem.TypeEdit` | frontend/src/components/TodoItem.tsx:52 | typing replaces the edit text only; edit mode and the dialog stay as they were |
| `TodoItem.ClickDelete` | frontend/src/components/TodoItem.tsx:34-36 | the delete button only opens the confirmation dialog, leaving the rest of the row as it was |
| `TodoItem.ConfirmDelete` | frontend/src/components/TodoItem.tsx:38-41 | `onDelete(id)` fires once and the dialog closes |
| `TodoItem.DeleteAfterConfirmation` | frontend/src/components/TodoItem.tsx:34-41 | the delete button followed by the confirmation fires `onDelete(id)` once and returns the row to its earlier state with the dialog closed |
| `TodoItem.PaddedTitleStillUpdates` | frontend/src/components/TodoItem.tsx:23-24 | the unchanged title with a trailing space still fires `onUpdate`, with a value equal to the current title |
| `TodoItem.EditThenCancelRestores` | frontend/src/components/TodoItem.tsx:18-32 | whatever was typed, cancel returns the row to its mounted state |
| `TodoItem.SaveUnchangedIsSilent` | frontend/src/components/TodoItem.tsx:23 | saving without typing fires nothing |
| `TodoItem.ToggleOpenTodo` | frontend/src/components/__tests__/TodoItem.test.tsx:22-32 | an open todo with id "1" toggles to `('1', true)` |
| `ClientServer.FormAgreesWithServer` | frontend/src/components/TodoInput.tsx:15-26 | the form accepts a title exactly when POST /todos answers 201 |
| `ClientServer.SubmittedTitleIsStoredVerbatim` | frontend/src/components/TodoInput.tsx:31-32 | a title the form hands on is created with exactly that title |
| `ClientServer.SavedEditIsAccepted` | frontend/src/components/TodoItem.tsx:23-25 | a title edit fired from an edit box within 255 code points is accepted by PATCH for a known id |
| `ClientServer.CountsMatchStatusListings` | frontend/src/App.tsx:113-114 | over a list loaded with status `all`, which is the whole repository, the client's counts are the lengths of the server's active and completed listings |
| `ClientServer.CountsOfFilteredLoad` | frontend/src/App.tsx:26 | over a list loaded with `active` the completed count is 0, and over one loaded with `completed` the active count is 0, whatever the repository holds; the other count is the listing's length |
| `ClientServer.ConfirmedCreateMatchesServer` | frontend/src/App.tsx:49 | For a fresh id, after a 201 the client list has the same multiset as the server's repository. The client holds the new todo first and the repository last, so the lists are equal exactly when the repository was empty. |
| `ClientServer.ConfirmedToggleMatchesServer` | frontend/src/App.tsx:60 | for a client list holding the whole repository (loaded with status `all`), a confirmed toggle leaves it equal to the server's repository after the PATCH |
| `ClientServer.ConfirmedTitleEditMatchesServer` | frontend/src/App.tsx:78 | for a client list holding the whole repository (loaded with status `all`), a confirmed title edit leaves it equal to the server's repository after the PATCH |
| `ClientServer.ConfirmedDeleteMatchesServer` | frontend/src/App.tsx:98 | for a client list holding the whole repository (loaded with status `all`), a confirmed delete leaves it equal to the server's repository after the DELETE |
| `ClientServer.ConfirmedRowDeleteRemovesRow` | frontend/src/components/TodoItem.tsx:38-41 | confirming the delete of row k of a list with unique ids fires `onDelete` with its id, and the confirmed delete leaves the list without exactly that row |
| `ClientServer.FailedCheckboxClickRestores` | frontend/src/components/TodoItem.tsx:47 | a checkbox click answered with a failure leaves a list with unique ids exactly as it was |

## Left out

- Repository failures: each handler's `catch` turns a thrown repository error into 500. Only the deterministic throw is modelled, `title.trim()` on a non-string. A dropped connection is not. A malformed UUID, which PostgreSQL rejects and the handler reports as 500 rather than 404, is not either.
- Confirmed calls on a list loaded with status `active` or `completed` are not related to the repository. Such a list is only part of the repository, so only the counts (`ClientServer.CountsOfFilteredLoad`) are stated for it.
- `Todos.RemoveById`: order and multiplicity are stated by the lemmas `Todos.RemoveKeepsOrder` and `Todos.RemoveKeepsMultiplicity` rather than in its own contract. In the contract they would be unfolded in every proof that uses the function, which makes those proofs too costly.
- Ids are opaque strings. The generated UUID of a create is a parameter, and its freshness is a precondition of the invariant lemmas only.
- `Controller.UpdateTodo`, `Controller.DeleteTodo`: the model finds a todo when its id equals the request's id as a string. The program passes the id to a PostgreSQL `uuid` column, which compares by value, so upper-case hex, braces or a spelling without hyphens also find the stored todo. Ids the client receives from the server are in the canonical lower-case form, so every call the frontend makes uses that form.
- `createdAt` and `updatedAt` are assigned by the ORM from the clock, so they are omitted.
- The order `repository.find()` returns is unspecified. The model uses the repository sequence's order.
- `Controller.CreateTodo`, `Controller.UpdateTodo`, `TodoInput.ValidateTitle`: lengths count code points, whereas JavaScript `length` counts UTF-16 units. A title with characters outside the Basic Multilingual Plane can therefore pass the model's 255 check and fail the program's.
- `Text.Lower`, `App.SearchFilter`: `toLowerCase` maps only ASCII and Latin-1 capitals. Other Unicode case mappings are not modelled.
- JSON numbers are integers in the model; only whether a number is zero affects any branch.
- The asynchronous parts of the client are not modelled: `fetchTodos` and its `useEffect` refetch, the loading and error flags, the retry button and the toasts. Interleavings of overlapping `setTodos` updates are not modelled either; each handler is one sequential transition, with the server's answer as a parameter.
- `TodoItem` keeps `editTitle` from the first render (`useState(todo.title)`). Later changes to the todo's props are not modelled.
- Whether the browser submits the form when Enter is pressed while the submit button is disabled is browser behaviour, so it is not modelled. `TodoInput.Submit` is the handler itself.
- Presentation components and glue are not modelled: `AnimatedTodoList`, `TodoSkeleton`, `DeleteConfirmDialog`, `TodoSearch`, `TodoFilters`, `AppSidebar` badges, theme and palette providers, `DevOverlay`, `main.tsx`.
- Also left out: the axios client, the Express wiring and routes, the auth middleware, the TypeORM configuration, migrations and seed data, and `formatRelativeDate`, which depends on the wall clock and locale formatting.
- The component tests that expect a `type` argument and note placeholders in `TodoInput`, or dev-mode props in `AppSidebar`, describe code that is not part of this model.

=== FILE: app.dfy ===
/** The client's list state in `App`: the search filter, the counts, and
    the create / toggle / title-edit / delete handlers, each as its
    optimistic step followed by its success or failure continuation. The
    server's answer is a parameter. */
module App {
  import opened Wrappers
  import opened Todos
  import Text
  import Lists

  /** A todo's title matches the search text: the lower-cased title
      contains the lower-cased, trimmed query. */
  predicate Matches(t: Todo, query: string) {
    Text.Includes(Text.Lower(t.title), Text.Trim(Text.Lower(query)))
  }

  /** `filteredTodos`: the whole list when the query is blank, otherwise
      the matching todos in list order. */
  function SearchFilter(todos: seq<Todo>, query: string): (r: seq<Todo>)
    ensures Text.IsBlank(query) ==> r == todos
    ensures !Text.IsBlank(query) ==>
      && (forall i | 0 <= i < |r| :: r[i] in todos && Matches(r[i], query))
      && (forall i | 0 <= i < |todos| && Matches(todos[i], query) :: todos[i] in r)
    ensures Lists.IsSubsequence(r, todos)
    ensures forall t :: multiset(r)[t] == (if Text.IsBlank(query) || Matches(t, query) then multiset(todos)[t] else 0)
  {
    if Text.Trim(query) != "" then
      var p := (t: Todo) => Matches(t, query);
      Lists.FilterIsSubsequence(todos, p);
      Lists.FilterMultiset(todos, p);
      Lists.Filter(todos, p)
    else
      Lists.SubsequenceOfItself(todos);
      todos
  }

  /** `activeTodosCount`, over the unsearched list: zero exactly when
      every todo is done. */
  function ActiveCount(todos: seq<Todo>): (n: nat)
    ensures n <= |todos|
    ensures n == 0 <==> forall i | 0 <= i < |todos| :: todos[i].completed
  {
    assert (forall i | 0 <= i < |todos| :: todos[i].completed) ==> Lists.Filter(todos, IsActive) == [] by {
      if forall i | 0 <= i < |todos| :: todos[i].completed {
        Lists.FilterNone(todos, IsActive);
      }
    }
    |Lists.Filter(todos, IsActive)|
  }

  /** `completedTodosCount`, over the unsearched list: zero exactly when
      every todo is open. */
  function CompletedCount(todos: seq<Todo>): (n: nat)
    ensures n <= |todos|
    ensures n == 0 <==> forall i | 0 <= i < |todos| :: !todos[i].completed
  {
    assert (forall i | 0 <= i < |todos| :: !todos[i].completed) ==> Lists.Filter(todos, IsCompleted) == [] by {
      if forall i | 0 <= i < |todos| :: !todos[i].completed {
        Lists.FilterNone(todos, IsCompleted);
      }
    }
    |Lists.Filter(todos, IsCompleted)|
  }

  /** The two badges add up to the list length (the sidebar's "all"
      badge), and neither depends on the search query, since both are
      taken over the unsearched list. */
  lemma CountsCoverList(todos: seq<Todo>)
    ensures ActiveCount(todos) + CompletedCount(todos) == |todos|
  {
    Lists.FilterPartition(todos, IsActive, IsCompleted);
  }

  // ---- create ----

  /** `handleAddTodo`: on success the server's todo is put in front of the
      list; on failure nothing was inserted, so nothing changes. The
      rollback of a failed delete re-inserts its snapshot the same way. */
  function HandleAdd(todos: seq<Todo>, created: Option<Todo>): (r: seq<Todo>)
    ensures created.None? ==> r == todos
    ensures created.Some? ==> |r| == |todos| + 1 && r[0] == created.value && r[1..] == todos
  {
    match created
    case Some(t) => [t] + todos
    case None => todos
  }

  // ---- toggle ----

  /** Helper for the checkbox handler and its rollback: every todo with
      this id gets `completed := c`; nothing else moves. */
  function SetCompleted(todos: seq<Todo>, id: string, c: bool): (r: seq<Todo>)
    ensures |r| == |todos|
    ensures forall i | 0 <= i < |todos| ::
      r[i] == (if todos[i].id == id then todos[i].(completed := c) else todos[i])
  {
    seq(|todos|, i requires 0 <= i < |todos| =>
      if todos[i].id == id then todos[i].(completed := c) else todos[i])
  }

  /** The optimistic step of `handleToggleTodo`. */
  function ToggleOptimistic(todos: seq<Todo>, id: string, c: bool): (r: seq<Todo>)
    ensures |r| == |todos|
    ensures forall i | 0 <= i < |todos| ::
      && r[i].id == todos[i].id && r[i].title == todos[i].title && r[i].kind == todos[i].kind
      && r[i].completed == (if todos[i].id == id then c else todos[i].completed)
  {
    SetCompleted(todos, id, c)
  }

  /** The failure continuation of `handleToggleTodo`: it writes the
      negation of the requested value rather than a snapshot, so what a
      todo held before the click plays no part. */
  function ToggleRevert(todos: seq<Todo>, id: string, c: bool): (r: seq<Todo>)
    ensures |r| == |todos|
    ensures forall i | 0 <= i < |todos| ::
      && r[i].id == todos[i].id && r[i].title == todos[i].title && r[i].kind == todos[i].kind
      && r[i].completed == (if todos[i].id == id then !c else todos[i].completed)
  {
    SetCompleted(todos, id, !c)
  }

  /** `handleToggleTodo` as one transition; `ok` is the server's answer.
      Only `completed` of the todos with that id changes: to the requested
      value on success, to its negation on failure. */
  function HandleToggle(todos: seq<Todo>, id: string, c: bool, ok: bool): (r: seq<Todo>)
    ensures |r| == |todos|
    ensures forall i | 0 <= i < |todos| ::
      && r[i].id == todos[i].id && r[i].title == todos[i].title && r[i].kind == todos[i].kind
      && r[i].completed == (if todos[i].id != id then todos[i].completed else if ok then c else !c)
  {
    var optimistic := ToggleOptimistic(todos, id, c);
    if ok then optimistic else ToggleRevert(optimistic, id, c)
  }

  /** A failed toggle gives back the original list exactly when every todo
      with that id held the negation of the requested value, which is what
      a click on the checkbox requests. */
  lemma ToggleFailureRestores(todos: seq<Todo>, id: string, c: bool)
    ensures HandleToggle(todos, id, c, false) == todos <==>
      forall i | 0 <= i < |todos| && todos[i].id == id :: todos[i].completed == !c
  {
    var r := HandleToggle(todos, id, c, false);
    if forall i | 0 <= i < |todos| && todos[i].id == id :: todos[i].completed == !c {
      assert forall i | 0 <= i < |todos| :: r[i] == todos[i];
    } else {
      var i :| 0 <= i < |todos| && todos[i].id == id && todos[i].completed != !c;
      assert r[i].completed != todos[i].completed;
    }
  }

  // ---- title edit ----

  /** Every todo with this id gets the new title; nothing else moves. */
  function SetTitle(todos: seq<Todo>, id: string, title: string): (r: seq<Todo>)
    ensures |r| == |todos|
    ensures forall i | 0 <= i < |todos| ::
      && r[i].id == todos[i].id && r[i].completed == todos[i].completed && r[i].kind == todos[i].kind
      && r[i].title == (if todos[i].id == id then title else todos[i].title)
  {
    seq(|todos|, i requires 0 <= i < |todos| =>
      if todos[i].id == id then todos[i].(title := title) else todos[i])
  }

  /** The failure continuation of `handleUpdateTodo`: the todo found before
      the edit, if any, is written back over every todo with that id; the
      others stay. */
  function TitleRevert(todos: seq<Todo>, id: string, snapshot: Option<Todo>): (r: seq<Todo>)
    ensures |r| == |todos|
    ensures forall i | 0 <= i < |todos| ::
      r[i] == (if todos[i].id == id && snapshot.Some? then snapshot.value else todos[i])
  {
    match snapshot
    case Some(t) => ReplaceById(todos, id, t)
    case None => todos
  }

  /** `handleUpdateTodo` as one transition: snapshot, optimistic edit, and
      the rollback when the server refuses. Todos with other ids are never
      touched. On success the todos with the id get the new title; on
      failure they all become the first todo that had the id. */
  function HandleUpdate(todos: seq<Todo>, id: string, title: string, ok: bool): (r: seq<Todo>)
    ensures |r| == |todos|
    ensures forall i | 0 <= i < |todos| && todos[i].id != id :: r[i] == todos[i]
    ensures ok ==> forall i | 0 <= i < |todos| && todos[i].id == id :: r[i] == todos[i].(title := title)
    ensures !ok ==> forall i | 0 <= i < |todos| && todos[i].id == id :: r[i] == FindById(todos, id).value
  {
    var snapshot := FindById(todos, id);
    var optimistic := SetTitle(todos, id, title);
    if ok then optimistic else TitleRevert(optimistic, id, snapshot)
  }

  /** With unique ids, a failed title edit gives back the original list,
      whether or not the id is present. */
  lemma UpdateFailureRestores(todos: seq<Todo>, id: string, title: string)
    requires UniqueIds(todos)
    ensures HandleUpdate(todos, id, title, false) == todos
  {
    var r := HandleUpdate(todos, id, title, false);
    assert |r| == |todos|;
    forall i | 0 <= i < |todos| ensures r[i] == todos[i] {
    }
  }

  /** With unique ids, a successful title edit changes only the title of
      the todo with that id. */
  lemma UpdateSuccessChangesOnlyTitle(todos: seq<Todo>, id: string, title: string, k: nat)
    requires UniqueIds(todos) && k < |todos| && todos[k].id == id
    ensures var r := HandleUpdate(todos, id, title, true);
      && |r| == |todos|
      && r[k] == todos[k].(title := title)
      && (forall i | 0 <= i < |todos| && i != k :: r[i] == todos[i])
  {
  }

  // ---- delete ----

  /** `handleDeleteTodo` as one transition. The failure continuation puts
      the todo found before the delete, if any, back the way a create adds
      one: in front of the list, not at the position it had. On success no todo with the id
      is left and every other todo is; on failure the id is present
      exactly when it was before, and then the todo found before the
      delete is first in the list. Either way nothing new appears. */
  function HandleDelete(todos: seq<Todo>, id: string, ok: bool): (r: seq<Todo>)
    ensures ok ==> !HasId(r, id)
    ensures forall i | 0 <= i < |todos| && todos[i].id != id :: todos[i] in r
    ensures !ok ==> (HasId(r, id) <==> HasId(todos, id))
    ensures !ok && HasId(todos, id) ==> r[0] == FindById(todos, id).value
    ensures forall t | t in r :: t in todos
  {
    var snapshot := FindById(todos, id);
    var optimistic := RemoveById(todos, id);
    if ok then optimistic else HandleAdd(optimistic, snapshot)
  }

  /** With unique ids, a failed delete of the todo at position `k` brings
      it back at the front: the result holds the same todos, and equals
      the original list only when the todo was already first. */
  lemma DeleteFailureMovesToFront(todos: seq<Todo>, k: nat)
    requires UniqueIds(todos) && k < |todos|
    ensures var r := HandleDelete(todos, todos[k].id, false);
      && r == [todos[k]] + todos[..k] + todos[k + 1..]
      && multiset(r) == multiset(todos)
      && (r == todos <==> k == 0)
  {
    var t, before, after := todos[k], todos[..k], todos[k + 1..];
    var r := HandleDelete(todos, t.id, false);
    DeleteFailureShape(todos, k);
    assert todos == before + [t] + after;
    MoveToFrontSameMultiset(before, t, after);
    if k != 0 {
      assert r[0] == t && todos[0] == before[0];
      assert t.id != todos[0].id;
    }
  }

  lemma DeleteFailureShape(todos: seq<Todo>, k: nat)
    requires UniqueIds(todos) && k < |todos|
    ensures HandleDelete(todos, todos[k].id, false) == [todos[k]] + todos[..k] + todos[k + 1..]
  {
    var t := todos[k];
    assert FindById(todos, t.id) == Some(t);
    RemoveUnique(todos, k);
  }

  lemma MoveToFrontSameMultiset(before: seq<Todo>, t: Todo, after: seq<Todo>)
    ensures multiset([t] + before + after) == multiset(before + [t] + after)
  {
  }

  /** A successful delete of the todo at position `k` (unique ids) removes
      exactly it; deleting an id that is not there changes nothing either
      way. */
  lemma DeleteOutcomes(todos: seq<Todo>, id: string, ok: bool, k: nat)
    requires UniqueIds(todos)
    ensures k < |todos| && todos[k].id == id ==>
      HandleDelete(todos, id, true) == todos[..k] + todos[k + 1..]
    ensures !HasId(todos, id) ==> HandleDelete(todos, id, ok) == todos
  {
    if k < |todos| && todos[k].id == id {
      RemoveUnique(todos, k);
    }
    if !HasId(todos, id) {
      RemoveAbsent(todos, id);
    }
  }
}

=== FILE: client_server.dfy ===
/** How the client and the server agree. The client's title rules match
    the server's. For a client list loaded with status `all`, which is the
    whole repository: after a confirmed toggle, title edit or delete the
    client list is the server's repository after that call; after a
    confirmed create it holds the same todos in another order; and the
    counts are the sizes of the server's status listings. */
module ClientServer {
  import opened Wrappers
  import opened Todos
  import Text
  import Controller
  import App
  import TodoInput
  import TodoItem
  import Lists

  /** The input form accepts a title exactly when POST /todos would. */
  lemma FormAgreesWithServer(s: string, store: seq<Todo>, freshId: string)
    ensures TodoInput.ValidateTitle(s).ok <==>
      Controller.CreateTodo(store, Controller.Str(s), freshId).response.status == 201
  {
  }

  /** A title the form hands on is created as is: trimming it again on the
      server changes nothing. */
  lemma SubmittedTitleIsStoredVerbatim(f: TodoInput.Form, store: seq<Todo>, freshId: string)
    requires TodoInput.Submit(f).added.Some?
    ensures var t := TodoInput.Submit(f).added.value;
      var o := Controller.CreateTodo(store, Controller.Str(t), freshId);
      o.response.status == 201 && o.response.body.todo.title == t
  {
    Text.TrimIdempotent(f.title);
  }

  /** A title edit the row fires, from an edit box holding at most 255
      code points, is accepted by PATCH /todos/:id for a todo the server
      has. */
  lemma SavedEditIsAccepted(todo: Todo, v: TodoItem.View, store: seq<Todo>)
    requires |v.editTitle| <= MaxTitleLength
    requires HasId(store, todo.id)
    requires TodoItem.Save(todo, v).call.Some?
    ensures var t := TodoItem.Save(todo, v).call.value.title;
      Controller.UpdateTodo(store, todo.id, Controller.Str(t), Controller.Undefined).response.status == 200
  {
    Text.TrimIdempotent(v.editTitle);
  }

  /** The todos the client holds after loading with this status filter. */
  function Loaded(store: seq<Todo>, status: string): seq<Todo> {
    Controller.GetAllTodos(store, Controller.Str(status)).response.body.items
  }

  /** Over a list loaded with status `all`, the client's active and
      completed counts are the lengths of the server's `?status=active` and
      `?status=completed` listings. */
  lemma CountsMatchStatusListings(store: seq<Todo>)
    ensures Loaded(store, "all") == store
    ensures App.ActiveCount(Loaded(store, "all")) == |Loaded(store, "active")|
    ensures App.CompletedCount(Loaded(store, "all")) == |Loaded(store, "completed")|
  {
  }

  /** A list loaded with status `active` or `completed` holds only one
      kind of todo, so the other count is 0 whatever the repository holds,
      while the matching count is still the server's listing length. */
  lemma CountsOfFilteredLoad(store: seq<Todo>)
    ensures App.ActiveCount(Loaded(store, "active")) == |Loaded(store, "active")|
    ensures App.CompletedCount(Loaded(store, "active")) == 0
    ensures App.ActiveCount(Loaded(store, "completed")) == 0
    ensures App.CompletedCount(Loaded(store, "completed")) == |Loaded(store, "completed")|
  {
    var active, done := Loaded(store, "active"), Loaded(store, "completed");
    Lists.FilterAll(active, IsActive);
    Lists.FilterAll(done, IsCompleted);
  }

  /** A confirmed create leaves the client with the todos of the server's
      repository, the new one first where the repository has it last. The
      two lists are equal only when the repository was empty before. */
  lemma ConfirmedCreateMatchesServer(store: seq<Todo>, title: Controller.Json, freshId: string)
    requires !HasId(store, freshId)
    requires Controller.CreateTodo(store, title, freshId).response.status == 201
    ensures var o := Controller.CreateTodo(store, title, freshId);
      var r := App.HandleAdd(store, Some(o.response.body.todo));
      && multiset(r) == multiset(o.store)
      && (r == o.store <==> store == [])
  {
    var o := Controller.CreateTodo(store, title, freshId);
    var t := o.response.body.todo;
    var r := App.HandleAdd(store, Some(t));
    assert o.store == store + [t];
    if store != [] {
      assert r[1] == store[0];
      assert store[0].id != t.id;
    }
  }

  /** Confirming the delete of row `k` of a list with unique ids, and the
      server's success, leave the list without exactly that row. */
  lemma ConfirmedRowDeleteRemovesRow(todos: seq<Todo>, k: nat, v: TodoItem.View)
    requires UniqueIds(todos) && k < |todos|
    ensures var call := TodoItem.ConfirmDelete(todos[k], TodoItem.ClickDelete(v)).call;
      && call == Some(TodoItem.OnDelete(todos[k].id))
      && App.HandleDelete(todos, call.value.id, true) == todos[..k] + todos[k + 1..]
  {
    RemoveUnique(todos, k);
  }

  /** A confirmed toggle leaves the client with exactly the server's
      repository after the PATCH. */
  lemma ConfirmedToggleMatchesServer(store: seq<Todo>, id: string, c: bool)
    requires HasId(store, id) && UniqueIds(store)
    ensures App.HandleToggle(store, id, c, true) ==
      Controller.UpdateTodo(store, id, Controller.Undefined, Controller.Bool(c)).store
  {
    var r := App.HandleToggle(store, id, c, true);
    var s' := Controller.UpdateTodo(store, id, Controller.Undefined, Controller.Bool(c)).store;
    assert |r| == |s'|;
    forall i | 0 <= i < |store| ensures r[i] == s'[i] {
    }
  }

  /** A confirmed title edit with an already trimmed, acceptable title
      (which is what a row fires) leaves the client with exactly the
      server's repository after the PATCH. */
  lemma ConfirmedTitleEditMatchesServer(store: seq<Todo>, id: string, title: string)
    requires HasId(store, id) && UniqueIds(store)
    requires AcceptableTitle(title) && Text.IsTrimmed(title)
    ensures App.HandleUpdate(store, id, title, true) ==
      Controller.UpdateTodo(store, id, Controller.Str(title), Controller.Undefined).store
  {
    var r := App.HandleUpdate(store, id, title, true);
    var s' := Controller.UpdateTodo(store, id, Controller.Str(title), Controller.Undefined).store;
    assert Text.Trim(title) == title by {
      assert title[..0] == [] && title[|title|..] == [] && title[0..|title|] == title;
      Text.TrimOfMargins(title, 0, |title|);
    }
    assert |r| == |s'|;
    forall i | 0 <= i < |store| ensures r[i] == s'[i] {
    }
  }

  /** A confirmed delete leaves the client with exactly the server's
      repository after the DELETE. */
  lemma ConfirmedDeleteMatchesServer(store: seq<Todo>, id: string)
    requires HasId(store, id)
    ensures App.HandleDelete(store, id, true) == Controller.DeleteTodo(store, id).store
  {
  }

  /** A checkbox click on a row of a list with unique ids, answered with a
      failure, leaves the list exactly as it was. */
  lemma FailedCheckboxClickRestores(todos: seq<Todo>, k: nat, v: TodoItem.View)
    requires UniqueIds(todos) && k < |todos|
    requires TodoItem.ClickCheckbox(todos[k], v).Some?
    ensures var call := TodoItem.ClickCheckbox(todos[k], v).value;
      App.HandleToggle(todos, call.id, call.completed, false) == todos
  {
    var call := TodoItem.ClickCheckbox(todos[k], v).value;
    App.ToggleFailureRestores(todos, call.id, call.completed);
  }
}

=== FILE: controller.dfy ===
/** The REST handlers of the todo backend (`TodoController`), each a pure
    transition from the repository contents and the request to the
    response and the repository afterwards. */
module Controller {
  import opened Wrappers
  import opened Todos
  import Text
  import Lists

  /** A value read from the parsed JSON body or query string; `Undefined`
      is a property that is absent. Numbers are kept only as far as their
      truthiness matters. */
  datatype Json = Undefined | Null | Bool(b: bool) | Num(n: int) | Str(s: string) | Composite

  /** JavaScript falsiness: `undefined`, `null`, `false`, `0` and `""`. */
  predicate Falsy(v: Json) {
    v.Undefined? || v.Null? || v == Bool(false) || v == Num(0) || v == Str("")
  }

  datatype ErrorKind = ValidationError | NotFound | InternalError

  datatype Body =
    | TodoList(items: seq<Todo>)
    | One(todo: Todo)
    | Error(kind: ErrorKind, message: string)
    | NoContent
    | AllDeleted(message: string, deleted: bool)

  datatype Response = Response(status: int, body: Body)

  /** What a handler sends, and the repository contents after it. */
  datatype Outcome = Outcome(response: Response, store: seq<Todo>)

  const TitleRequired := "Title is required and cannot be empty"
  const TitleEmpty := "Title cannot be empty"
  const TitleTooLong := "Title cannot exceed 255 characters"
  const CompletedNotBoolean := "Completed must be a boolean"
  const TodoNotFound := "Todo not found"
  const CreateFailed := "Failed to create todo"
  const UpdateFailed := "Failed to update todo"
  const AllDeletedMessage := "All todos deleted successfully"

  function Reject(message: string, store: seq<Todo>): Outcome {
    Outcome(Response(400, Error(ValidationError, message)), store)
  }

  function Missing(store: seq<Todo>): Outcome {
    Outcome(Response(404, Error(NotFound, TodoNotFound)), store)
  }

  function Crash(message: string, store: seq<Todo>): Outcome {
    Outcome(Response(500, Error(InternalError, message)), store)
  }

  /** Whether the `status` query parameter lets a todo through: `'active'`
      keeps the open ones, `'completed'` the done ones, and any other value,
      or none at all, keeps everything. */
  predicate Selected(status: Json, t: Todo) {
    && (status == Str("active") ==> !t.completed)
    && (status == Str("completed") ==> t.completed)
  }

  /** GET /todos: the todos the status parameter selects, in repository
      order, as a bare array; the repository is not touched. */
  function GetAllTodos(store: seq<Todo>, status: Json): (o: Outcome)
    ensures o.store == store
    ensures o.response.status == 200 && o.response.body.TodoList?
    ensures var items := o.response.body.items;
      && (forall i | 0 <= i < |items| :: items[i] in store && Selected(status, items[i]))
      && (forall i | 0 <= i < |store| && Selected(status, store[i]) :: store[i] in items)
      && Lists.IsSubsequence(items, store)
  {
    var items :=
      if status == Str("active") then Lists.Filter(store, IsActive)
      else if status == Str("completed") then Lists.Filter(store, IsCompleted)
      else store;
    Lists.FilterIsSubsequence(store, IsActive);
    Lists.FilterIsSubsequence(store, IsCompleted);
    Lists.SubsequenceOfItself(store);
    Outcome(Response(200, TodoList(items)), store)
  }

  /** The todo a successful create stores. */
  function NewTodo(title: string, freshId: string): Todo {
    Todo(freshId, Text.Trim(title), false, Task)
  }

  /** POST /todos. A falsy title, a blank title, or a title longer than 255
      code points as sent (before trimming) is rejected with 400; a truthy
      title that is not a string makes `title.trim()` throw, which the
      handler reports as 500. Otherwise one todo with the fresh id, the
      trimmed title, `completed = false` and the default kind is added and
      returned with 201. Only a 201 changes the repository. */
  function CreateTodo(store: seq<Todo>, title: Json, freshId: string): (o: Outcome)
    ensures o.response.status in {201, 400, 500}
    ensures o.response.status != 201 ==> o.store == store
    ensures o.response.status == 400 <==>
      (title.Str? && !AcceptableTitle(title.s)) || (!title.Str? && Falsy(title))
    ensures o.response.status == 500 <==> !title.Str? && !Falsy(title)
    ensures o.response.status == 201 ==>
      && title.Str? && AcceptableTitle(title.s)
      && o.response.body == One(NewTodo(title.s, freshId))
      && o.store == store + [NewTodo(title.s, freshId)]
    ensures title.Str? && !Text.IsBlank(title.s) && |title.s| > MaxTitleLength ==>
      o.response.body == Error(ValidationError, TitleTooLong)
  {
    if Falsy(title) then Reject(TitleRequired, store)
    else match title
      case Str(s) =>
        if Text.Trim(s) == "" then Reject(TitleRequired, store)
        else if |s| > MaxTitleLength then Reject(TitleTooLong, store)
        else
          var t := NewTodo(s, freshId);
          Outcome(Response(201, One(t)), store + [t])
      case _ => Crash(CreateFailed, store)
  }

  /** The `title` of an update body passes validation. */
  predicate TitlePatchOk(title: Json) {
    title.Undefined? || (title.Str? && AcceptableTitle(title.s))
  }

  /** The `completed` of an update body passes validation. */
  predicate CompletedPatchOk(completed: Json) {
    completed.Undefined? || completed.Bool?
  }

  /** The todo `t` with the provided fields of an update applied. */
  function Patched(t: Todo, title: Json, completed: Json): Todo {
    t.(title := if title.Str? then Text.Trim(title.s) else t.title,
       completed := if completed.Bool? then completed.b else t.completed)
  }

  /** PATCH /todos/:id. An unknown id is 404 whatever the body holds. Then
      a provided title must be a non-blank string of at most 255 code
      points as sent (400 otherwise, 500 if it is not a string at all), and
      a provided `completed` must be a boolean (400 otherwise). Only when
      everything passes is the todo saved, with the title trimmed and the
      absent fields left alone, and returned with 200. */
  function UpdateTodo(store: seq<Todo>, id: string, title: Json, completed: Json): (o: Outcome)
    ensures o.response.status in {200, 400, 404, 500}
    ensures o.response.status != 200 ==> o.store == store
    ensures !HasId(store, id) ==> o == Missing(store)
    ensures o.response.status == 200 <==>
      HasId(store, id) && TitlePatchOk(title) && CompletedPatchOk(completed)
    ensures o.response.status == 500 <==>
      HasId(store, id) && !title.Undefined? && !title.Str?
    ensures o.response.status == 400 <==>
      && HasId(store, id)
      && ((title.Str? && !AcceptableTitle(title.s))
          || (TitlePatchOk(title) && !CompletedPatchOk(completed)))
    ensures o.response.status == 200 ==>
      var u := Patched(FindById(store, id).value, title, completed);
      && u.id == id
      && o.response.body == One(u)
      && o.store == ReplaceById(store, id, u)
  {
    match FindById(store, id)
    case None => Missing(store)
    case Some(t) =>
      var titled: Result :=
        if title.Undefined? then Ok(t)
        else match title
          case Str(s) =>
            if Text.Trim(s) == "" then Failed(Reject(TitleEmpty, store))
            else if |s| > MaxTitleLength then Failed(Reject(TitleTooLong, store))
            else Ok(t.(title := Text.Trim(s)))
          case _ => Failed(Crash(UpdateFailed, store));
      match titled
      case Failed(o) => o
      case Ok(t1) =>
        if completed.Undefined? then Saved(store, id, t1)
        else match completed
          case Bool(b) => Saved(store, id, t1.(completed := b))
          case _ => Reject(CompletedNotBoolean, store)
  }

  /** An intermediate step of the update handler: the entity edited so far,
      or the response it has already returned. */
  datatype Result = Ok(todo: Todo) | Failed(outcome: Outcome)

  function Saved(store: seq<Todo>, id: string, t: Todo): Outcome {
    Outcome(Response(200, One(t)), ReplaceById(store, id, t))
  }

  /** DELETE /todos/:id: 204 with an empty body when the id exists, and the
      todo is gone; 404 and no change otherwise. */
  function DeleteTodo(store: seq<Todo>, id: string): (o: Outcome)
    ensures o.response.status == 204 <==> HasId(store, id)
    ensures !HasId(store, id) ==> o == Missing(store)
    ensures HasId(store, id) ==>
      o.response.body == NoContent && !HasId(o.store, id)
      && (forall i | 0 <= i < |store| && store[i].id != id :: store[i] in o.store)
      && (forall i | 0 <= i < |o.store| :: o.store[i] in store)
  {
    match FindById(store, id)
    case None => Missing(store)
    case Some(_) => Outcome(Response(204, NoContent), RemoveById(store, id))
  }

  /** DELETE /todos: the repository is emptied and the confirmation
      `{ deleted: true }` is sent with 200. */
  function DeleteAllTodos(store: seq<Todo>): (o: Outcome)
    ensures o.store == []
    ensures o.response.status == 200
    ensures o.response.body.AllDeleted? && o.response.body.deleted
  {
    Outcome(Response(200, AllDeleted(AllDeletedMessage, true)), [])
  }
}

=== FILE: controller_props.dfy ===
/** Properties of the backend handlers that relate several calls, or a
    call and the repository invariant. */
module ControllerProperties {
  import opened Wrappers
  import opened Todos
  import opened Controller
  import Text
  import Lists

  /** `?status=active` and `?status=completed` split what a plain GET
      returns: together they hold every todo exactly once. */
  lemma StatusFiltersPartition(store: seq<Todo>, other: Json)
    requires other != Str("active") && other != Str("completed")
    ensures var active := GetAllTodos(store, Str("active")).response.body.items;
      var done := GetAllTodos(store, Str("completed")).response.body.items;
      var all := GetAllTodos(store, other).response.body.items;
      && all == store
      && |active| + |done| == |all|
      && multiset(active) + multiset(done) == multiset(all)
  {
    Lists.FilterPartition(store, IsActive, IsCompleted);
  }

  /** A title that passes validation is stored as a valid stored title. */
  lemma AcceptedTitleIsStored(s: string)
    requires AcceptableTitle(s)
    ensures StoredTitle(Text.Trim(s))
  {
  }

  /** A create with a fresh id keeps ids unique and every stored title
      trimmed, non-empty and within 255 code points. */
  lemma CreatePreservesWellFormed(store: seq<Todo>, title: Json, freshId: string)
    requires WellFormed(store) && !HasId(store, freshId)
    ensures WellFormed(CreateTodo(store, title, freshId).store)
  {
    var o := CreateTodo(store, title, freshId);
    if o.response.status == 201 {
      var t := NewTodo(title.s, freshId);
      AcceptedTitleIsStored(title.s);
      var s' := store + [t];
      forall i, j | 0 <= i < |s'| && 0 <= j < |s'| && s'[i].id == s'[j].id
        ensures i == j
      {
        if i == |store| || j == |store| {
          assert s'[i].id == freshId ==> i == |store|;
          assert s'[j].id == freshId ==> j == |store|;
        }
      }
    }
  }

  /** After a successful create, the new id finds exactly the created
      todo, and every other id finds what it found before. */
  lemma CreateThenFind(store: seq<Todo>, title: Json, freshId: string, x: string)
    requires !HasId(store, freshId)
    requires CreateTodo(store, title, freshId).response.status == 201
    ensures var s' := CreateTodo(store, title, freshId).store;
      && FindById(s', freshId) == Some(Todo(freshId, Text.Trim(title.s), false, Task))
      && (x != freshId ==> FindById(s', x) == FindById(store, x))
      && |s'| == |store| + 1
  {
    FindAfterAppend(store, NewTodo(title.s, freshId), freshId);
    FindAfterAppend(store, NewTodo(title.s, freshId), x);
  }

  /** The length check runs on the title as sent: 'a' followed by 255
      spaces is rejected as too long although it trims to "a". */
  lemma CreateChecksLengthBeforeTrim(store: seq<Todo>, freshId: string)
    ensures var s := "a" + seq(255, _ => ' ');
      && Text.Trim(s) == "a"
      && CreateTodo(store, Str(s), freshId) == Outcome(Response(400, Error(ValidationError, TitleTooLong)), store)
  {
    var s := "a" + seq(255, _ => ' ');
    assert Text.IsBlank(seq(255, _ => ' '));
    Text.TrimPadded("", "a", seq(255, _ => ' '));
    assert "" + "a" + seq(255, _ => ' ') == s;
  }

  /** An update keeps ids unique and stored titles well formed. */
  lemma UpdatePreservesWellFormed(store: seq<Todo>, id: string, title: Json, completed: Json)
    requires WellFormed(store)
    ensures WellFormed(UpdateTodo(store, id, title, completed).store)
  {
    var o := UpdateTodo(store, id, title, completed);
    if o.response.status == 200 {
      var u := Patched(FindById(store, id).value, title, completed);
      if title.Str? {
        AcceptedTitleIsStored(title.s);
      }
      assert forall i | 0 <= i < |store| :: o.store[i].id == store[i].id;
    }
  }

  /** After a successful update, the id finds the patched todo, which
      differs from the old one only in the fields the body provided; every
      other id finds what it found before, and the ids keep their
      positions. */
  lemma UpdateThenFind(store: seq<Todo>, id: string, title: Json, completed: Json, x: string)
    requires UpdateTodo(store, id, title, completed).response.status == 200
    ensures var old_ := FindById(store, id).value;
      var s' := UpdateTodo(store, id, title, completed).store;
      var found := FindById(s', id);
      && found.Some?
      && found.value.id == old_.id && found.value.kind == old_.kind
      && found.value.title == (if title.Str? then Text.Trim(title.s) else old_.title)
      && found.value.completed == (if completed.Bool? then completed.b else old_.completed)
      && (x != id ==> FindById(s', x) == FindById(store, x))
      && |s'| == |store|
      && (forall i | 0 <= i < |store| :: s'[i].id == store[i].id)
  {
    var u := Patched(FindById(store, id).value, title, completed);
    FindAfterReplace(store, id, u, id);
    FindAfterReplace(store, id, u, x);
  }

  /** Deleting an existing id removes exactly that todo: one fewer, and
      the rest, in order, are what was there. */
  lemma DeleteRemovesExactlyOne(store: seq<Todo>, k: nat)
    requires WellFormed(store) && k < |store|
    ensures var o := DeleteTodo(store, store[k].id);
      && o.response.status == 204
      && o.store == store[..k] + store[k + 1..]
      && |o.store| == |store| - 1
      && multiset(o.store) + multiset{store[k]} == multiset(store)
  {
    var before, after := store[..k], store[k + 1..];
    RemoveUnique(store, k);
    assert store == before + [store[k]] + after;
    assert multiset(store) == multiset(before) + multiset{store[k]} + multiset(after);
    assert multiset(before + after) == multiset(before) + multiset(after);
  }

  /** A delete keeps the store invariant. */
  lemma DeletePreservesWellFormed(store: seq<Todo>, id: string)
    requires WellFormed(store)
    ensures WellFormed(DeleteTodo(store, id).store)
  {
    if HasId(store, id) {
      var k :| 0 <= k < |store| && store[k].id == id;
      RemoveUnique(store, k);
      DropOneWellFormed(store, k);
    }
  }

  /** Dropping one position keeps the store invariant. */
  lemma DropOneWellFormed(store: seq<Todo>, k: nat)
    requires WellFormed(store) && k < |store|
    ensures WellFormed(store[..k] + store[k + 1..])
  {
    var s' := store[..k] + store[k + 1..];
    forall i | 0 <= i < |s'| ensures s'[i] == store[if i < k then i else i + 1] {
    }
    forall i, j | 0 <= i < |s'| && 0 <= j < |s'| && s'[i].id == s'[j].id
      ensures i == j
    {
      var i', j' := if i < k then i else i + 1, if j < k then j else j + 1;
      assert store[i'].id == store[j'].id;
    }
  }

  /** Deleting the same id twice: the second call finds nothing and
      answers 404 without touching the repository. */
  lemma DeleteTwiceIsNotFound(store: seq<Todo>, id: string)
    requires DeleteTodo(store, id).response.status == 204
    ensures var s' := DeleteTodo(store, id).store;
      DeleteTodo(s', id) == Outcome(Response(404, Error(NotFound, TodoNotFound)), s')
  {
  }

  /** After delete-all every listing is empty, and a second delete-all
      answers the same and leaves the same empty repository. */
  lemma DeleteAllThenList(store: seq<Todo>, status: Json)
    ensures var s' := DeleteAllTodos(store).store;
      && GetAllTodos(s', status).response.body.items == []
      && DeleteAllTodos(s') == DeleteAllTodos(store)
  {
  }
}

=== FILE: lists.dfy ===
/** Order-preserving filtering of sequences, the `Array.prototype.filter`
    used throughout the application. */
module Lists {

  /** `sub` can be obtained from `s` by deleting elements, keeping order. */
  ghost predicate IsSubsequence<T>(sub: seq<T>, s: seq<T>)
    decreases |s|
  {
    |sub| == 0
    || (|s| > 0
        && ((sub[0] == s[0] && IsSubsequence(sub[1..], s[1..]))
            || IsSubsequence(sub, s[1..])))
  }

  /** The elements of `s` satisfying `p`, in their original order. */
  function Filter<T>(s: seq<T>, p: T -> bool): (r: seq<T>)
    ensures |r| <= |s|
    ensures forall i | 0 <= i < |r| :: r[i] in s && p(r[i])
    ensures forall i | 0 <= i < |s| && p(s[i]) :: s[i] in r
    decreases |s|
  {
    if |s| == 0 then []
    else
      var rest := Filter(s[1..], p);
      assert forall i | 1 <= i < |s| :: s[i] == s[1..][i - 1];
      if p(s[0]) then [s[0]] + rest else rest
  }

  /** The filtered sequence keeps the relative order of `s`. */
  lemma {:induction false} FilterIsSubsequence<T>(s: seq<T>, p: T -> bool)
    ensures IsSubsequence(Filter(s, p), s)
    ensures multiset(Filter(s, p)) <= multiset(s)
    decreases |s|
  {
    if |s| > 0 {
      FilterIsSubsequence(s[1..], p);
      assert s == [s[0]] + s[1..];
      if p(s[0]) {
        assert Filter(s, p)[1..] == Filter(s[1..], p);
      }
    }
  }

  /** Every sequence is a subsequence of itself. */
  lemma {:induction false} SubsequenceOfItself<T>(s: seq<T>)
    ensures IsSubsequence(s, s)
    decreases |s|
  {
    if |s| > 0 {
      SubsequenceOfItself(s[1..]);
    }
  }

  /** Filtering with a predicate every element meets changes nothing. */
  lemma {:induction false} FilterAll<T>(s: seq<T>, p: T -> bool)
    requires forall i | 0 <= i < |s| :: p(s[i])
    ensures Filter(s, p) == s
    decreases |s|
  {
    if |s| > 0 {
      FilterAll(s[1..], p);
      assert s == [s[0]] + s[1..];
    }
  }

  /** Filtering with a predicate no element meets leaves nothing. */
  lemma {:induction false} FilterNone<T>(s: seq<T>, p: T -> bool)
    requires forall i | 0 <= i < |s| :: !p(s[i])
    ensures Filter(s, p) == []
    decreases |s|
  {
    if |s| > 0 {
      FilterNone(s[1..], p);
      assert forall i | 0 <= i < |s| - 1 :: s[1..][i] == s[i + 1];
    }
  }

  /** Filtering keeps every occurrence of an element that satisfies `p`
      and none of one that does not. */
  lemma {:induction false} FilterMultiset<T>(s: seq<T>, p: T -> bool)
    ensures forall x :: multiset(Filter(s, p))[x] == if p(x) then multiset(s)[x] else 0
    decreases |s|
  {
    if |s| > 0 {
      FilterMultiset(s[1..], p);
      assert s == [s[0]] + s[1..];
      assert multiset(s) == multiset{s[0]} + multiset(s[1..]);
    }
  }

  /** Keeping the elements that satisfy `p` and, separately, those that
      satisfy `q`, where exactly one of the two holds of every element,
      splits `s` into two parts whose sizes add up to `|s|` and whose
      elements together are exactly those of `s`. */
  lemma {:induction false} FilterPartition<T>(s: seq<T>, p: T -> bool, q: T -> bool)
    requires forall x :: p(x) != q(x)
    ensures |Filter(s, p)| + |Filter(s, q)| == |s|
    ensures multiset(Filter(s, p)) + multiset(Filter(s, q)) == multiset(s)
    decreases |s|
  {
    if |s| > 0 {
      FilterPartition(s[1..], p, q);
      assert s == [s[0]] + s[1..];
    }
  }
}

=== FILE: pagination.dfy ===
/** `TodoPagination`: which page numbers are shown, where the ellipses
    go, which link is active, and what Previous / Next request. */
module Pagination {
  import opened Wrappers

  /** What the component renders between Previous and Next. */
  datatype Token = Ellipsis | Link(page: int, active: bool)

  /** Page `p` survives the `visiblePages` filter: it is the first page,
      the last page, or a neighbour of the current one. */
  predicate IsVisible(p: int, current: int, total: int) {
    p == 1 || p == total || (current - 1 <= p <= current + 1)
  }

  ghost predicate StrictlyIncreasing(s: seq<int>) {
    forall i, j | 0 <= i < j < |s| :: s[i] < s[j]
  }

  /** The page numbers of the links among `items`, in order. */
  ghost function Links(items: seq<Token>): seq<int>
    decreases |items|
  {
    if |items| == 0 then []
    else if items[|items| - 1].Link? then Links(items[..|items| - 1]) + [items[|items| - 1].page]
    else Links(items[..|items| - 1])
  }

  /** An ellipsis always sits between two links whose pages are more than
      one apart. */
  ghost predicate EllipsesMarkGaps(items: seq<Token>) {
    forall j | 0 <= j < |items| && items[j].Ellipsis? ::
      0 < j < |items| - 1 && items[j - 1].Link? && items[j + 1].Link?
      && items[j + 1].page - items[j - 1].page > 1
  }

  /** Two links next to each other have pages at most one apart. */
  ghost predicate AdjacentLinksConsecutive(items: seq<Token>) {
    forall j | 0 <= j < |items| - 1 && items[j].Link? && items[j + 1].Link? ::
      items[j + 1].page - items[j].page <= 1
  }

  /** A link is active exactly when it is the current page, and at most
      one link is active. */
  ghost predicate ActiveIsCurrent(items: seq<Token>, current: int) {
    && (forall j | 0 <= j < |items| && items[j].Link? :: items[j].active <==> items[j].page == current)
    && (forall j, k | 0 <= j < |items| && 0 <= k < |items| && items[j].Link? && items[k].Link?
          && items[j].active && items[k].active :: j == k)
  }

  /** At most five distinct numbers lie in `{1, total, current-1, current,
      current+1}`, so a strictly increasing run of them has length at most
      five. */
  lemma FiveCandidates(pages: seq<int>, current: int, total: int)
    requires StrictlyIncreasing(pages)
    requires forall i | 0 <= i < |pages| :: IsVisible(pages[i], current, total)
    ensures |pages| <= 5
  {
    var candidates := {1, total, current - 1, current, current + 1};
    DistinctElements(pages);
    assert Elems(pages) <= candidates;
    SubsetSize(Elems(pages), candidates);
  }

  /** The numbers occurring in `s`. */
  ghost function Elems(s: seq<int>): set<int> {
    set i | 0 <= i < |s| :: s[i]
  }

  lemma ElemsSplit(s: seq<int>)
    requires |s| > 0
    ensures Elems(s) == Elems(s[1..]) + {s[0]}
  {
    var tail := s[1..];
    forall x | x in Elems(s) ensures x in Elems(tail) + {s[0]} {
      var i :| 0 <= i < |s| && s[i] == x;
      if i > 0 {
        assert tail[i - 1] == x;
      }
    }
    forall x | x in Elems(tail) ensures x in Elems(s) {
      var i :| 0 <= i < |tail| && tail[i] == x;
      assert s[i + 1] == x;
    }
  }

  lemma {:induction false} DistinctElements(s: seq<int>)
    requires StrictlyIncreasing(s)
    ensures |Elems(s)| == |s|
    decreases |s|
  {
    if |s| > 0 {
      var tail := s[1..];
      assert StrictlyIncreasing(tail) by {
        forall i, j | 0 <= i < j < |tail| ensures tail[i] < tail[j] {
          assert tail[i] == s[i + 1] && tail[j] == s[j + 1];
        }
      }
      DistinctElements(tail);
      ElemsSplit(s);
      assert s[0] !in Elems(tail) by {
        forall i | 0 <= i < |tail| ensures tail[i] != s[0] {
          assert tail[i] == s[i + 1];
        }
      }
    }
  }

  lemma SubsetSize(a: set<int>, b: set<int>)
    requires a <= b
    ensures |a| <= |b|
  {
    assert a - b == {};
    assert a * b == a;
    assert a + b == b;
    assert |a - b| + |b - a| + |a * b| == |a + b|;
  }

  /** `visiblePages`: the pages in `1..totalPages` that pass the filter, in
      increasing order. The first and last page are always there, and at
      most five pages are. */
  method VisiblePages(current: int, total: int) returns (pages: seq<int>)
    ensures forall p :: p in pages <==> 1 <= p <= total && IsVisible(p, current, total)
    ensures StrictlyIncreasing(pages)
    ensures total >= 1 ==> |pages| > 0 && pages[0] == 1 && pages[|pages| - 1] == total
    ensures |pages| <= 5
  {
    pages := [];
    var p := 1;
    while p <= total
      invariant 1 <= p && (total >= 1 ==> p <= total + 1) && (total < 1 ==> p == 1)
      invariant forall q :: q in pages <==> 1 <= q < p && IsVisible(q, current, total)
      invariant StrictlyIncreasing(pages)
      invariant forall i | 0 <= i < |pages| :: pages[i] < p
      invariant p == 1 ==> pages == []
      invariant p > 1 ==> |pages| > 0 && pages[0] == 1
      invariant total >= 1 && p == total + 1 ==> pages[|pages| - 1] == total
    {
      if IsVisible(p, current, total) {
        assert |pages| > 0 ==> (pages + [p])[0] == pages[0];
        pages := pages + [p];
      }
      p := p + 1;
    }
    FiveCandidates(pages, current, total);
  }

  /** The whole component: nothing for one page or fewer; otherwise the
      visible pages as links, the current one active, with an ellipsis
      between two of them exactly when pages were skipped. */
  method Render(current: int, total: int) returns (r: Option<seq<Token>>)
    ensures r.None? <==> total <= 1
    ensures r.Some? ==>
      var items := r.value;
      var links := Links(items);
      && (forall p :: p in links <==> 1 <= p <= total && IsVisible(p, current, total))
      && StrictlyIncreasing(links)
      && |links| > 0 && links[0] == 1 && links[|links| - 1] == total
      && |links| <= 5
      && EllipsesMarkGaps(items)
      && AdjacentLinksConsecutive(items)
      && ActiveIsCurrent(items, current)
  {
    if total <= 1 {
      return None;
    }
    var pages := VisiblePages(current, total);
    assert forall i | 0 <= i < |pages| :: pages[i] >= 1 by {
      forall i | 0 <= i < |pages| ensures pages[i] >= 1 {
        assert pages[i] in pages;
      }
    }
    var items := RenderPages(pages, current);
    return Some(items);
  }

  /** `renderPages`: one link per visible page, preceded by an ellipsis
      when the page is not the first and more than one past the previous
      one. */
  method RenderPages(pages: seq<int>, current: int) returns (items: seq<Token>)
    requires StrictlyIncreasing(pages)
    requires forall i | 0 <= i < |pages| :: pages[i] >= 1
    ensures Links(items) == pages
    ensures EllipsesMarkGaps(items)
    ensures AdjacentLinksConsecutive(items)
    ensures ActiveIsCurrent(items, current)
  {
    items := [];
    var lastPage := 0;
    var i := 0;
    while i < |pages|
      invariant 0 <= i <= |pages|
      invariant Links(items) == pages[..i]
      invariant lastPage == (if i == 0 then 0 else pages[i - 1])
      invariant RenderedUpTo(items, lastPage, current)
    {
      var page := pages[i];
      assert lastPage < page by {
        if i > 0 {
          assert pages[i - 1] < pages[i];
        }
      }
      RenderStep(items, lastPage, page, current);
      items := items + Step(lastPage, page, current);
      assert pages[..i + 1] == pages[..i] + [page];
      lastPage := page;
      i := i + 1;
    }
    assert pages[..|pages|] == pages;
  }

  /** The state `renderPages` keeps between iterations: the tokens so far
      and `lastPage`, the page of the last link (0 before the first). */
  ghost predicate RenderedUpTo(items: seq<Token>, lastPage: int, current: int) {
    && 0 <= lastPage
    && (|items| == 0 <==> lastPage == 0)
    && (|items| > 0 ==> items[|items| - 1] == Link(lastPage, lastPage == current))
    && (forall j | 0 <= j < |items| && items[j].Link? :: items[j].page <= lastPage)
    && EllipsesMarkGaps(items)
    && AdjacentLinksConsecutive(items)
    && ActiveIsCurrent(items, current)
  }

  /** The token (or two) one iteration of `renderPages` appends. */
  function Step(lastPage: int, page: int, current: int): seq<Token> {
    (if lastPage != 0 && page - lastPage > 1 then [Ellipsis] else [])
      + [Link(page, current == page)]
  }

  /** One iteration of `renderPages` keeps its state consistent and adds
      exactly `page` to the links. */
  lemma RenderStep(items: seq<Token>, lastPage: int, page: int, current: int)
    requires RenderedUpTo(items, lastPage, current)
    requires lastPage < page
    ensures RenderedUpTo(items + Step(lastPage, page, current), page, current)
    ensures Links(items + Step(lastPage, page, current)) == Links(items) + [page]
  {
    StepLinks(items, lastPage, page, current);
    StepGaps(items, lastPage, page, current);
    StepActive(items, lastPage, page, current);
  }

  lemma StepLinks(items: seq<Token>, lastPage: int, page: int, current: int)
    ensures Links(items + Step(lastPage, page, current)) == Links(items) + [page]
  {
    var next := items + Step(lastPage, page, current);
    var n := |next|;
    assert next[n - 1] == Link(page, page == current);
    if lastPage != 0 && page - lastPage > 1 {
      assert next[..n - 1] == items + [Ellipsis];
      assert (items + [Ellipsis])[..|items|] == items;
    } else {
      assert next[..n - 1] == items;
    }
  }

  lemma StepGaps(items: seq<Token>, lastPage: int, page: int, current: int)
    requires RenderedUpTo(items, lastPage, current)
    requires lastPage < page
    ensures EllipsesMarkGaps(items + Step(lastPage, page, current))
    ensures AdjacentLinksConsecutive(items + Step(lastPage, page, current))
  {
    var next := items + Step(lastPage, page, current);
    var m := |items|;
    assert forall j | 0 <= j < m :: next[j] == items[j];
    if lastPage != 0 && page - lastPage > 1 {
      assert next[m] == Ellipsis && next[m + 1] == Link(page, current == page);
      assert next[m - 1] == Link(lastPage, lastPage == current);
    } else {
      assert next[m] == Link(page, current == page);
    }
  }

  lemma StepActive(items: seq<Token>, lastPage: int, page: int, current: int)
    requires RenderedUpTo(items, lastPage, current)
    requires lastPage < page
    ensures ActiveIsCurrent(items + Step(lastPage, page, current), current)
    ensures forall j | 0 <= j < |items + Step(lastPage, page, current)| && (items + Step(lastPage, page, current))[j].Link? ::
      (items + Step(lastPage, page, current))[j].page <= page
  {
    var next := items + Step(lastPage, page, current);
    var m := |items|;
    assert forall j | 0 <= j < m :: next[j] == items[j];
    assert forall j | m <= j < |next| && next[j].Link? :: next[j] == Link(page, current == page);
  }

  /** Previous asks for `currentPage - 1` only when the current page is
      past the first. */
  function PreviousRequest(current: int): (r: Option<int>)
    ensures r.Some? <==> current > 1
    ensures r.Some? ==> r.value == current - 1 && r.value >= 1
  {
    if current > 1 then Some(current - 1) else None
  }

  /** Next asks for `currentPage + 1` only when the current page is before
      the last. */
  function NextRequest(current: int, total: int): (r: Option<int>)
    ensures r.Some? <==> current < total
    ensures r.Some? ==> r.value == current + 1 && r.value <= total
  {
    if current < total then Some(current + 1) else None
  }

  /** Starting from a page in range, the page Previous or Next requests is
      in range too, and their disabled styling matches whether they make a
      request. That the numbered links stay in range is the contract of
      `VisiblePages`. */
  lemma RequestsStayInRange(current: int, total: int, page: int)
    requires 1 <= current <= total
    ensures PreviousRequest(current) == Some(page) ==> 1 <= page <= total && page == current - 1
    ensures NextRequest(current, total) == Some(page) ==> 1 <= page <= total && page == current + 1
    ensures PreviousRequest(current).None? <==> current <= 1
    ensures NextRequest(current, total).None? <==> current >= total
  {
  }
}

=== FILE: text.dfy ===
/** The JavaScript string operations the application relies on:
    `String.prototype.trim`, `toLowerCase` and `includes`. Strings are
    sequences of code points. */
module Text {

  /** The code points `trim` strips: the ECMAScript WhiteSpace set (tab,
      vertical tab, form feed, space, no-break space, byte-order mark and
      the Unicode space separators) and the LineTerminator set. */
  const Whitespace: set<char> := {
    '\t', '\n', '\U{000B}', '\U{000C}', '\r', ' ', '\U{00A0}', '\U{1680}',
    '\U{2000}', '\U{2001}', '\U{2002}', '\U{2003}', '\U{2004}', '\U{2005}',
    '\U{2006}', '\U{2007}', '\U{2008}', '\U{2009}', '\U{200A}',
    '\U{2028}', '\U{2029}', '\U{202F}', '\U{205F}', '\U{3000}', '\U{FEFF}'
  }

  predicate IsWhitespace(c: char) {
    c in Whitespace
  }

  /** Every code point of `s` is whitespace (vacuously true of ""). */
  predicate IsBlank(s: string) {
    forall i | 0 <= i < |s| :: IsWhitespace(s[i])
  }

  /** `s` neither starts nor ends with whitespace. */
  predicate IsTrimmed(s: string) {
    |s| == 0 || (!IsWhitespace(s[0]) && !IsWhitespace(s[|s| - 1]))
  }

  /** Length of the whitespace run at the start of `s`. */
  function LeadingWhitespace(s: string): (k: nat)
    ensures k <= |s|
    ensures forall i | 0 <= i < k :: IsWhitespace(s[i])
    ensures k < |s| ==> !IsWhitespace(s[k])
    decreases |s|
  {
    if |s| == 0 || !IsWhitespace(s[0]) then 0
    else
      var k := 1 + LeadingWhitespace(s[1..]);
      assert forall i | 1 <= i < k :: s[i] == s[1..][i - 1];
      k
  }

  /** Position just after the last non-whitespace code point of `s`
      (0 when there is none). */
  function ContentEnd(s: string): (k: nat)
    ensures k <= |s|
    ensures forall i | k <= i < |s| :: IsWhitespace(s[i])
    ensures 0 < k ==> !IsWhitespace(s[k - 1])
    decreases |s|
  {
    if |s| == 0 || !IsWhitespace(s[|s| - 1]) then |s|
    else
      var k := ContentEnd(s[..|s| - 1]);
      assert forall i | k <= i < |s| - 1 :: s[i] == s[..|s| - 1][i];
      k
  }

  /** `s.trim()`: `s` without its leading and trailing whitespace. The
      result is the stretch of `s` between two blank margins, has no
      whitespace at either end, and is empty exactly when `s` is blank. */
  function Trim(s: string): (r: string)
    ensures |r| <= |s|
    ensures IsTrimmed(r)
    ensures r == [] <==> IsBlank(s)
    ensures var a := LeadingWhitespace(s);
      && a + |r| <= |s|
      && r == s[a..a + |r|]
      && (forall i | 0 <= i < a :: IsWhitespace(s[i]))
      && (forall i | a + |r| <= i < |s| :: IsWhitespace(s[i]))
  {
    var a := LeadingWhitespace(s);
    var e := ContentEnd(s[a..]);
    TrimBounds(s, a, e);
    s[a..a + e]
  }

  /** The facts `Trim` promises, about the two cut points it computes. */
  lemma TrimBounds(s: string, a: nat, e: nat)
    requires a == LeadingWhitespace(s) && e == ContentEnd(s[a..])
    ensures a + e <= |s|
    ensures forall i | a + e <= i < |s| :: IsWhitespace(s[i])
    ensures IsTrimmed(s[a..a + e])
    ensures e == 0 <==> IsBlank(s)
  {
    TrailingMargin(s, a, e);
    if a < |s| {
      TrimmedMiddle(s, a, e);
    }
  }

  lemma TrailingMargin(s: string, a: nat, e: nat)
    requires a <= |s| && e == ContentEnd(s[a..])
    ensures a + e <= |s|
    ensures forall i | a + e <= i < |s| :: IsWhitespace(s[i])
  {
    var rest := s[a..];
    forall i | a + e <= i < |s| ensures IsWhitespace(s[i]) {
      assert s[i] == rest[i - a];
    }
  }

  lemma TrimmedMiddle(s: string, a: nat, e: nat)
    requires a < |s| && !IsWhitespace(s[a]) && e == ContentEnd(s[a..])
    ensures 0 < e && a + e <= |s|
    ensures IsTrimmed(s[a..a + e])
    ensures !IsBlank(s)
  {
    var rest := s[a..];
    assert rest[0] == s[a];
    var mid := s[a..a + e];
    assert mid[0] == s[a];
    assert mid[e - 1] == rest[e - 1];
  }

  /** The blank margins around a trimmed stretch are exactly what `trim`
      removes: if `s` is blank before `a` and from `b` on, and `s[a..b]` is
      trimmed, then `trim` returns `s[a..b]`. */
  lemma TrimOfMargins(s: string, a: nat, b: nat)
    requires a <= b <= |s|
    requires IsBlank(s[..a]) && IsBlank(s[b..])
    requires IsTrimmed(s[a..b])
    ensures Trim(s) == s[a..b]
  {
    if a == b {
      forall i | 0 <= i < |s| ensures IsWhitespace(s[i]) {
        assert i < a ==> s[i] == s[..a][i];
        assert i >= a ==> s[i] == s[b..][i - b];
      }
    } else {
      var k := LeadingWhitespace(s);
      assert s[a] == s[a..b][0];
      assert forall i | 0 <= i < a :: IsWhitespace(s[i]) by {
        forall i | 0 <= i < a ensures IsWhitespace(s[i]) {
          assert s[i] == s[..a][i];
        }
      }
      assert k == a;
      var rest := s[a..];
      var e := ContentEnd(rest);
      assert rest[b - a - 1] == s[a..b][b - a - 1];
      assert forall i | b - a <= i < |rest| :: IsWhitespace(rest[i]) by {
        forall i | b - a <= i < |rest| ensures IsWhitespace(rest[i]) {
          assert rest[i] == s[b..][i - (b - a)];
        }
      }
      assert e == b - a;
    }
  }

  /** `trim` is idempotent. */
  lemma TrimIdempotent(s: string)
    ensures Trim(Trim(s)) == Trim(s)
  {
    var r := Trim(s);
    assert r[..0] == [] && r[|r|..] == [] && r[0..|r|] == r;
    TrimOfMargins(r, 0, |r|);
  }

  /** Padding a trimmed string with whitespace on either side does not
      change what `trim` returns. */
  lemma TrimPadded(front: string, t: string, back: string)
    requires IsBlank(front) && IsBlank(back) && IsTrimmed(t)
    ensures Trim(front + t + back) == t
  {
    var s := front + t + back;
    assert s[..|front|] == front;
    assert s[|front| + |t|..] == back;
    assert s[|front|..|front| + |t|] == t;
    TrimOfMargins(s, |front|, |front| + |t|);
  }

  /** The capitals `toLowerCase` is modelled on: ASCII `A`..`Z` and the
      Latin-1 capitals (U+00C0..U+00DE except the multiplication sign). */
  predicate IsCapital(c: char) {
    var n := c as int;
    0x41 <= n <= 0x5A || (0xC0 <= n <= 0xDE && n != 0xD7)
  }

  /** Lower-case mapping of one code point: a capital becomes its small
      letter, 0x20 further on; every other code point stays. */
  function LowerChar(c: char): (r: char)
    ensures !IsCapital(r)
    ensures !IsCapital(c) ==> r == c
    ensures IsCapital(c) ==> r as int == c as int + 0x20
    ensures IsWhitespace(r) <==> IsWhitespace(c)
  {
    if IsCapital(c) then (c as int + 0x20) as char else c
  }

  /** `s.toLowerCase()`, code point by code point: each capital becomes
      its small letter, 0x20 further on, every other code point stays, and
      whitespace stays where it was. */
  function Lower(s: string): (r: string)
    ensures |r| == |s|
    ensures forall i | 0 <= i < |s| :: !IsCapital(r[i]) && (IsCapital(s[i]) || r[i] == s[i])
    ensures forall i | 0 <= i < |s| && IsCapital(s[i]) :: r[i] as int == s[i] as int + 0x20
    ensures forall i | 0 <= i < |s| :: IsWhitespace(r[i]) <==> IsWhitespace(s[i])
  {
    seq(|s|, i requires 0 <= i < |s| => LowerChar(s[i]))
  }

  /** Lower-casing twice is lower-casing once. */
  lemma LowerIdempotent(s: string)
    ensures Lower(Lower(s)) == Lower(s)
  {
    var r := Lower(s);
    assert forall i | 0 <= i < |r| :: Lower(r)[i] == r[i];
  }

  /** A query is blank exactly when its lower-cased form is. */
  lemma LowerKeepsBlank(s: string)
    ensures IsBlank(Lower(s)) <==> IsBlank(s)
  {
  }

  /** `needle` occurs in `hay` starting at position `i`. */
  ghost predicate OccursAt(needle: string, hay: string, i: int) {
    0 <= i && i + |needle| <= |hay| && hay[i..i + |needle|] == needle
  }

  /** `hay.includes(needle)`: `needle` occurs somewhere in `hay`; the empty
      string occurs in every string. */
  function Includes(hay: string, needle: string): (b: bool)
    ensures b <==> exists i :: OccursAt(needle, hay, i)
    decreases |hay|
  {
    if needle <= hay then
      assert OccursAt(needle, hay, 0);
      true
    else if |hay| == 0 then false
    else
      var b := Includes(hay[1..], needle);
      assert b ==> exists i :: OccursAt(needle, hay, i) by {
        if b {
          var j :| OccursAt(needle, hay[1..], j);
          assert hay[1..][j..j + |needle|] == hay[j + 1..j + 1 + |needle|];
          assert OccursAt(needle, hay, j + 1);
        }
      }
      assert (exists i :: OccursAt(needle, hay, i)) ==> b by {
        if exists i :: OccursAt(needle, hay, i) {
          var i :| OccursAt(needle, hay, i);
          assert hay[1..][i - 1..i - 1 + |needle|] == hay[i..i + |needle|];
          assert OccursAt(needle, hay[1..], i - 1);
        }
      }
      b
  }
}

=== FILE: todo_input.dfy ===
/** `TodoInput`: the new-todo form, a small state machine over the typed
    title and the error shown under it. `onAdd` is reported as the title
    it would receive. */
module TodoInput {
  import opened Wrappers
  import Text
  import Todos

  const EmptyError := "El t\U{00ED}tulo no puede estar vac\U{00ED}o"
  const TooLongError := "El t\U{00ED}tulo no puede superar 255 caracteres"

  /** The component's state: `title` and `error` ("" for none). */
  datatype Form = Form(title: string, error: string)

  const Initial := Form("", "")

  /** `validateTitle`: the verdict and the error it leaves set. */
  datatype Validation = Validation(ok: bool, error: string)

  /** `validateTitle` accepts exactly the titles the server accepts, leaves
      no error when it accepts, the "empty" error for a blank title and the
      "too long" error for a non-blank one over 255 code points. */
  function ValidateTitle(value: string): (v: Validation)
    ensures v.ok <==> Todos.AcceptableTitle(value)
    ensures v.ok <==> v.error == ""
    ensures Text.IsBlank(value) ==> v.error == EmptyError
    ensures !Text.IsBlank(value) && |value| > Todos.MaxTitleLength ==> v.error == TooLongError
  {
    if Text.Trim(value) == "" then Validation(false, EmptyError)
    else if |value| > Todos.MaxTitleLength then Validation(false, TooLongError)
    else Validation(true, "")
  }

  /** What `handleSubmit` does: the next state, and the title handed to
      `onAdd` if it is called. */
  datatype Submission = Submission(form: Form, added: Option<string>)

  /** `handleSubmit`: a valid title is handed to `onAdd` once, trimmed, and
      the form is cleared; an invalid one is not handed on, stays typed,
      and the validation error is shown. */
  function Submit(f: Form): (r: Submission)
    ensures r.added.Some? <==> Todos.AcceptableTitle(f.title)
    ensures r.added.Some? ==> r.added.value == Text.Trim(f.title) && r.form == Initial
    ensures r.added.None? ==>
      r.form.title == f.title && r.form.error == ValidateTitle(f.title).error && r.form.error != ""
  {
    var v := ValidateTitle(f.title);
    if v.ok then Submission(Form("", ""), Some(Text.Trim(f.title)))
    else Submission(f.(error := v.error), None)
  }

  /** `handleChange`: the title always becomes the typed value; an error
      is cleared once the value is not blank, and never introduced. */
  function Change(f: Form, value: string): (r: Form)
    ensures r.title == value
    ensures r.error == "" || r.error == f.error
    ensures f.error != "" && !Text.IsBlank(value) ==> r.error == ""
    ensures Text.IsBlank(value) ==> r.error == f.error
  {
    if f.error != "" && Text.Trim(value) != "" then Form(value, "")
    else Form(value, f.error)
  }

  /** The submit button's `disabled` attribute. */
  function SubmitDisabled(disabled: bool, title: string): (b: bool)
    ensures b <==> disabled || Text.IsBlank(title)
  {
    disabled || Text.Trim(title) == ""
  }

  /** For a title the input lets one type (its `maxLength` is 255), a
      submit hands the title on exactly when the button is enabled. */
  lemma EnabledButtonSubmits(f: Form)
    requires |f.title| <= Todos.MaxTitleLength
    ensures Submit(f).added.Some? <==> !SubmitDisabled(false, f.title)
  {
  }

  /** Typing after a rejected submit and submitting again: the error from
      the first attempt is gone as soon as a non-blank value is typed, and
      a valid value is then handed on trimmed. */
  lemma RetryAfterRejection(f: Form, value: string)
    requires Submit(f).added.None?
    requires Todos.AcceptableTitle(value)
    ensures Change(Submit(f).form, value).error == ""
    ensures Submit(Change(Submit(f).form, value)) == Submission(Initial, Some(Text.Trim(value)))
  {
  }
}

=== FILE: todo_item.dfy ===
/** `TodoItem`: one row of the list, with its edit mode and delete
    dialog. The callbacks it fires are reported as values. */
module TodoItem {
  import opened Wrappers
  import opened Todos
  import Text

  /** The row's local state. */
  datatype View = View(editing: bool, editTitle: string, showDeleteDialog: bool)

  /** A call to one of the row's callbacks. */
  datatype Callback =
    | OnToggle(id: string, completed: bool)
    | OnDelete(id: string)
    | OnUpdate(id: string, title: string)

  /** The row's state after a handler, and the callback it fired, if any. */
  datatype Reaction = Reaction(view: View, call: Option<Callback>)

  /** The state a freshly mounted row starts in. */
  function Mount(todo: Todo): View {
    View(false, todo.title, false)
  }

  /** The checkbox is disabled while editing. */
  predicate CheckboxEnabled(v: View) {
    !v.editing
  }

  /** The edit button is disabled for completed todos. */
  predicate EditEnabled(todo: Todo) {
    !todo.completed
  }

  /** A click on the checkbox passes the new checked value, the negation
      of the todo's `completed`, unless the checkbox is disabled. */
  function ClickCheckbox(todo: Todo, v: View): (r: Option<Callback>)
    ensures r.Some? <==> !v.editing
    ensures r.Some? ==> r.value.OnToggle? && r.value.id == todo.id && r.value.completed != todo.completed
  {
    if CheckboxEnabled(v) then Some(OnToggle(todo.id, !todo.completed)) else None
  }

  /** A click on the edit button enters edit mode, unless it is disabled. */
  function ClickEdit(todo: Todo, v: View): (r: View)
    ensures r.editing <==> v.editing || !todo.completed
    ensures r.editTitle == v.editTitle && r.showDeleteDialog == v.showDeleteDialog
  {
    if EditEnabled(todo) then v.(editing := true) else v
  }

  /** Typing in the edit box replaces the edit text and nothing else;
      the todo itself is not touched until a save. */
  function TypeEdit(v: View, value: string): (r: View)
    ensures r.editTitle == value
    ensures r.editing == v.editing && r.showDeleteDialog == v.showDeleteDialog
  {
    v.(editTitle := value)
  }

  /** `handleSave`: `onUpdate` fires with the trimmed text exactly when
      the trimmed text is not empty and the text as typed differs from the
      current title; edit mode ends either way and the typed text stays. */
  function Save(todo: Todo, v: View): (r: Reaction)
    ensures r.call.Some? <==> !Text.IsBlank(v.editTitle) && v.editTitle != todo.title
    ensures r.call.Some? ==> r.call.value == OnUpdate(todo.id, Text.Trim(v.editTitle))
    ensures !r.view.editing
    ensures r.view.editTitle == v.editTitle && r.view.showDeleteDialog == v.showDeleteDialog
  {
    var call := if Text.Trim(v.editTitle) != "" && v.editTitle != todo.title
      then Some(OnUpdate(todo.id, Text.Trim(v.editTitle)))
      else None;
    Reaction(v.(editing := false), call)
  }

  /** `handleCancel`: the edit text goes back to the current title, edit
      mode ends, and no callback fires. */
  function Cancel(todo: Todo, v: View): (r: Reaction)
    ensures r.call.None?
    ensures !r.view.editing && r.view.editTitle == todo.title
    ensures r.view.showDeleteDialog == v.showDeleteDialog
  {
    Reaction(v.(editTitle := todo.title, editing := false), None)
  }

  /** `handleDeleteClick` only opens the confirmation dialog; deleting
      waits for the confirmation. */
  function ClickDelete(v: View): (r: View)
    ensures r.showDeleteDialog
    ensures r.editing == v.editing && r.editTitle == v.editTitle
  {
    v.(showDeleteDialog := true)
  }

  /** `handleConfirmDelete`: `onDelete` fires once with the todo's id and
      the dialog closes. */
  function ConfirmDelete(todo: Todo, v: View): (r: Reaction)
    ensures r.call == Some(OnDelete(todo.id))
    ensures !r.view.showDeleteDialog
    ensures r.view.editing == v.editing && r.view.editTitle == v.editTitle
  {
    Reaction(v.(showDeleteDialog := false), Some(OnDelete(todo.id)))
  }

  /** Because the comparison uses the untrimmed text, saving the current
      title with a trailing space still fires `onUpdate`, with a value
      equal to the current title. */
  lemma PaddedTitleStillUpdates(todo: Todo, v: View)
    requires StoredTitle(todo.title)
    requires v.editTitle == todo.title + " "
    ensures Save(todo, v).call == Some(OnUpdate(todo.id, todo.title))
  {
    assert Text.IsBlank(" ");
    Text.TrimPadded("", todo.title, " ");
    assert "" + todo.title + " " == v.editTitle;
    assert v.editTitle != todo.title by {
      assert |v.editTitle| == |todo.title| + 1;
    }
  }

  /** The delete button and the confirmation together fire `onDelete`
      exactly once, with the row's id, and leave the dialog closed and
      the rest of the row as it was. */
  lemma DeleteAfterConfirmation(todo: Todo, v: View)
    ensures var r := ConfirmDelete(todo, ClickDelete(v));
      && r.call == Some(OnDelete(todo.id))
      && r.view == v.(showDeleteDialog := false)
  {
  }

  /** Whatever was typed, cancelling returns the row to the state it was
      mounted in. */
  lemma EditThenCancelRestores(todo: Todo, typed: string)
    requires EditEnabled(todo)
    ensures var v := TypeEdit(ClickEdit(todo, Mount(todo)), typed);
      v.editing && Cancel(todo, v).view == Mount(todo)
  {
  }

  /** Entering edit mode and saving without typing fires nothing. */
  lemma SaveUnchangedIsSilent(todo: Todo)
    ensures Save(todo, ClickEdit(todo, Mount(todo))).call.None?
  {
  }

  /** The row in the component test: an open todo with id "1" toggles to
      `('1', true)`. */
  lemma ToggleOpenTodo(title: string)
    ensures ClickCheckbox(Todo("1", title, false, Task), Mount(Todo("1", title, false, Task)))
      == Some(OnToggle("1", true))
  {
  }
}

=== FILE: todos.dfy ===
/** The todo entity shared by the backend and the client, and the
    id-addressed list operations both sides use. */
module Todos {
  import opened Wrappers
  import Text
  import Lists

  /** The entity's `type` column: `'task' | 'note'`, default `'task'`. */
  datatype Kind = Task | Note

  /** One todo row. The ORM timestamps are not modelled. */
  datatype Todo = Todo(id: string, title: string, completed: bool, kind: Kind)

  /** Width of the `title` varchar column and of every title check. */
  const MaxTitleLength: nat := 255

  /** The title rule both the server and the input form enforce on the
      text as typed: not blank, and at most 255 code points before
      trimming. */
  predicate AcceptableTitle(s: string) {
    Text.Trim(s) != "" && |s| <= MaxTitleLength
  }

  /** A title as the server stores it: non-empty, already trimmed, within
      the column width. */
  predicate StoredTitle(s: string) {
    0 < |s| <= MaxTitleLength && Text.IsTrimmed(s)
  }

  /** No two todos share an id. */
  ghost predicate UniqueIds(s: seq<Todo>) {
    forall i, j | 0 <= i < |s| && 0 <= j < |s| && s[i].id == s[j].id :: i == j
  }

  /** Some todo in `s` has this id. */
  ghost predicate HasId(s: seq<Todo>, id: string) {
    exists i | 0 <= i < |s| :: s[i].id == id
  }

  /** The store invariant: unique ids, and every title as the server
      stores it. */
  ghost predicate WellFormed(s: seq<Todo>) {
    && UniqueIds(s)
    && (forall i | 0 <= i < |s| :: StoredTitle(s[i].title))
  }

  predicate IsActive(t: Todo) { !t.completed }

  predicate IsCompleted(t: Todo) { t.completed }

  /** Position `k` holds the first todo of `s` with this id. */
  ghost predicate FirstWithId(s: seq<Todo>, id: string, k: int) {
    0 <= k < |s| && s[k].id == id && forall j | 0 <= j < k :: s[j].id != id
  }

  /** `todos.find(t => t.id === id)`: the first todo with this id, if any. */
  function FindById(s: seq<Todo>, id: string): (r: Option<Todo>)
    ensures r.None? <==> !HasId(s, id)
    ensures r.Some? ==> r.value in s && r.value.id == id
    ensures r.Some? ==> exists k :: FirstWithId(s, id, k) && s[k] == r.value
    ensures r.Some? && UniqueIds(s) ==> forall i | 0 <= i < |s| && s[i].id == id :: s[i] == r.value
    decreases |s|
  {
    if |s| == 0 then None
    else if s[0].id == id then
      assert FirstWithId(s, id, 0);
      Some(s[0])
    else
      var r := FindById(s[1..], id);
      assert r.Some? ==> exists k :: FirstWithId(s, id, k) && s[k] == r.value by {
        if r.Some? {
          var k :| FirstWithId(s[1..], id, k) && s[1..][k] == r.value;
          assert forall j | 1 <= j <= k :: s[j] == s[1..][j - 1];
          assert FirstWithId(s, id, k + 1);
        }
      }
      assert HasId(s, id) ==> HasId(s[1..], id) by {
        if HasId(s, id) {
          var i :| 0 <= i < |s| && s[i].id == id;
          assert s[1..][i - 1] == s[i];
        }
      }
      assert HasId(s[1..], id) ==> HasId(s, id) by {
        if HasId(s[1..], id) {
          var i :| 0 <= i < |s| - 1 && s[1..][i].id == id;
          assert s[i + 1] == s[1..][i];
        }
      }
      assert r.Some? && UniqueIds(s) ==> UniqueIds(s[1..]) by {
        if UniqueIds(s) {
          forall i, j | 0 <= i < |s| - 1 && 0 <= j < |s| - 1 && s[1..][i].id == s[1..][j].id
            ensures i == j
          {
            assert s[i + 1].id == s[j + 1].id;
          }
        }
      }
      r
  }

  /** Helper: every todo with this id replaced by `t`; the rest untouched. The
      server's `save` of a loaded entity and the client's title rollback
      both have this shape. */
  function ReplaceById(s: seq<Todo>, id: string, t: Todo): (r: seq<Todo>)
    ensures |r| == |s|
    ensures forall i | 0 <= i < |s| :: r[i] == (if s[i].id == id then t else s[i])
  {
    seq(|s|, i requires 0 <= i < |s| => if s[i].id == id then t else s[i])
  }

  /** `r` holds every todo of `s` without this id as often as `s` does,
      and no todo with it. */
  ghost predicate DropsOnlyId(r: seq<Todo>, s: seq<Todo>, id: string) {
    forall t :: multiset(r)[t] == if t.id == id then 0 else multiset(s)[t]
  }

  /** `todos.filter(t => t.id !== id)`: every todo with this id dropped,
      the others kept in order. */
  function RemoveById(s: seq<Todo>, id: string): (r: seq<Todo>)
    ensures |r| <= |s|
    ensures !HasId(r, id)
    ensures forall i | 0 <= i < |s| && s[i].id != id :: s[i] in r
    ensures forall i | 0 <= i < |r| :: r[i] in s
    decreases |s|
  {
    if |s| == 0 then []
    else
      var rest := RemoveById(s[1..], id);
      assert forall i | 1 <= i < |s| :: s[i] == s[1..][i - 1];
      if s[0].id == id then rest else [s[0]] + rest
  }

  /** Removing by id keeps the remaining todos in their original order. */
  lemma {:induction false} RemoveKeepsOrder(s: seq<Todo>, id: string)
    ensures Lists.IsSubsequence(RemoveById(s, id), s)
    decreases |s|
  {
    if |s| > 0 {
      var rest := RemoveById(s[1..], id);
      RemoveKeepsOrder(s[1..], id);
      if s[0].id != id {
        assert ([s[0]] + rest)[1..] == rest;
      }
    }
  }

  /** Removing by id keeps every other todo as often as it occurs and
      drops every occurrence of a todo with the id. */
  lemma {:induction false} RemoveKeepsMultiplicity(s: seq<Todo>, id: string)
    ensures DropsOnlyId(RemoveById(s, id), s, id)
    decreases |s|
  {
    if |s| > 0 {
      RemoveKeepsMultiplicity(s[1..], id);
      assert s == [s[0]] + s[1..];
      assert multiset(s) == multiset{s[0]} + multiset(s[1..]);
    }
  }

  /** Removing an id no todo has changes nothing. */
  lemma {:induction false} RemoveAbsent(s: seq<Todo>, id: string)
    requires !HasId(s, id)
    ensures RemoveById(s, id) == s
    decreases |s|
  {
    if |s| > 0 {
      assert !HasId(s[1..], id) by {
        forall i | 0 <= i < |s| - 1 ensures s[1..][i].id != id {
          assert s[1..][i] == s[i + 1];
        }
      }
      RemoveAbsent(s[1..], id);
      assert s == [s[0]] + s[1..];
    }
  }

  /** Looking an id up after appending `t` finds the earlier todo if there
      is one, else `t` if it carries the id. */
  lemma {:induction false} FindAfterAppend(s: seq<Todo>, t: Todo, id: string)
    ensures FindById(s + [t], id) ==
      if HasId(s, id) then FindById(s, id)
      else if t.id == id then Some(t)
      else None
    decreases |s|
  {
    if |s| > 0 {
      assert (s + [t])[1..] == s[1..] + [t];
      if s[0].id != id {
        FindAfterAppend(s[1..], t, id);
      }
    }
  }

  /** After replacing the todo with id `id` by `t` (same id), looking up
      `id` finds `t` and looking up any other id finds what it found
      before. */
  lemma {:induction false} FindAfterReplace(s: seq<Todo>, id: string, t: Todo, x: string)
    requires t.id == id
    ensures FindById(ReplaceById(s, id, t), x) ==
      if x == id then (if HasId(s, id) then Some(t) else None)
      else FindById(s, x)
    decreases |s|
  {
    if |s| > 0 {
      assert ReplaceById(s, id, t)[1..] == ReplaceById(s[1..], id, t);
      FindAfterReplace(s[1..], id, t, x);
    }
  }

  /** With unique ids, removing by id drops exactly the one todo holding
      it and keeps the others in order. */
  lemma {:induction false} RemoveUnique(s: seq<Todo>, k: nat)
    requires UniqueIds(s) && k < |s|
    ensures RemoveById(s, s[k].id) == s[..k] + s[k + 1..]
    decreases |s|
  {
    if k == 0 {
      RemoveHead(s);
    } else {
      var tail := s[1..];
      UniqueTail(s);
      assert tail[k - 1] == s[k];
      RemoveUnique(tail, k - 1);
      assert s[0].id != s[k].id;
      RemoveLater(s, k);
    }
  }

  /** The first todo of a list with unique ids is removed by its id alone. */
  lemma RemoveHead(s: seq<Todo>)
    requires UniqueIds(s) && |s| > 0
    ensures RemoveById(s, s[0].id) == s[1..]
  {
    HeadIdNotInTail(s);
    RemoveAbsent(s[1..], s[0].id);
  }

  /** Removing a later todo keeps the head in front of what removing it
      from the tail leaves. */
  lemma RemoveLater(s: seq<Todo>, k: nat)
    requires 0 < k < |s| && s[0].id != s[k].id
    requires RemoveById(s[1..], s[k].id) == s[1..][..k - 1] + s[1..][k..]
    ensures RemoveById(s, s[k].id) == s[..k] + s[k + 1..]
  {
    var front, back := s[1..][..k - 1], s[1..][k..];
    calc {
      RemoveById(s, s[k].id);
      [s[0]] + RemoveById(s[1..], s[k].id);
      [s[0]] + (front + back);
      ([s[0]] + front) + back;
      { assert s[..k] == [s[0]] + front; assert s[k + 1..] == back; }
      s[..k] + s[k + 1..];
    }
  }

  lemma UniqueTail(s: seq<Todo>)
    requires UniqueIds(s) && |s| > 0
    ensures UniqueIds(s[1..])
  {
    var tail := s[1..];
    forall i, j | 0 <= i < |tail| && 0 <= j < |tail| && tail[i].id == tail[j].id
      ensures i == j
    {
      assert s[i + 1].id == s[j + 1].id;
    }
  }

  lemma HeadIdNotInTail(s: seq<Todo>)
    requires UniqueIds(s) && |s| > 0
    ensures !HasId(s[1..], s[0].id)
  {
    var tail := s[1..];
    forall i | 0 <= i < |tail| ensures tail[i].id != s[0].id {
      assert tail[i] == s[i + 1];
    }
  }
}

=== FILE: wrappers.dfy ===
/** Optional value, used for "not found" results and for
    callbacks that may or may not fire. */
module Wrappers {

  datatype Option<+T> = None | Some(value: T)
}
